=== FILE: README.md ===
# tagsinput — a Dafny model of the TagsInput tag engine

`tagsinput.js` turns an `<input>` into a tag field: the user types values that
become tags, which are rendered as chips, mirrored into the original input as a
comma-joined value, and announced through a small event system (`add`,
`remove`, `invalid`, `max`, `clear`, `change`). This project models the state
engine behind that widget and proves what its public API and its keyboard
handlers do to the tags.

The model is purely functional. One widget is an immutable `Store.Widget`
record that holds:

- the tags in insertion order;
- the readonly and disabled modes;
- the `_silent` flag;
- the hidden input's value;
- the log of every published event;
- the suggestion dropdown;
- the text of the visible input.

The listener registry that `on` and `off` keep is modelled on its own, in
`Events`, together with the handlers `_emit` calls from it.

Every operation maps a widget (and the merged options, `Validation.Config`) to
the next widget, plus the boolean the JavaScript returns where it returns one.
Rendering is not modelled, but each DOM side effect that carries state is:

- the hidden value that `_syncHidden` writes;
- the published events;
- the visible suggestions and the highlighted index.

Modules, following the source's structure:

- `Sequences`: the order-preserving sub-list that `filter` produces.
- `Text`: the JavaScript string primitives the widget relies on. These are
  `trim` (with the ECMAScript white-space set), `toLowerCase`, `includes` /
  `indexOf`, `split` (including the empty separator) and `join`.
- `Validation`: the options and their defaults (the default transform
  `v => v.trim()` is a constructor of its own, `TrimDefault`, so that it can
  be recognised), `_normalize`, `_hasExact`,
  `_isDuplicate` and `_validate` (as `Check`, which also says which check
  failed), and the collection invariant `TagsOk`.
- `Events`: the event kinds and payloads, `on`, `off` and the handler list
  `_emit` calls. `on` and `off` return `None` where they throw: for a name
  the registry does not hold that is a member of `Object.prototype`, such as
  `"toString"`, because `_listeners` is a plain object.
- `Suggestions`: `_showSuggestions` (filter, exclusion of held tags, limit)
  and `_moveSuggestion`.
- `Store`: `add`, `remove`, `removeAt`, `getTags` / `has` / `count`,
  `clear`, `fill` / `replace`, `reset`, and the constructor.
- `Controller`: `_onKeydown`, `_onInput`, the `mousedown` pick of a
  suggestion, and blur.
- `Scenarios`: the documented examples as concrete lemmas.

Where the widget's documentation and the code disagree, the model follows the
code:

- **Suggestion exclusion.** Held tags are compared with the duplicate
  comparator `_hasExact`, so with `caseSensitive: false` a suggestion
  differing from a tag only in case is hidden too (tagsinput.js:246).
- **Splitting pasted text.** `_onInput` splits only on the first listed
  separator that occurs in the text, not on all of them (tagsinput.js:221-226).
- **Modes do not stop `clear`.** `clear` has no mode guard, so `fill` and
  `reset` on a readonly or disabled widget empty it (tagsinput.js:537-543).
- **Hidden value at construction.** The hidden input is only re-synced by a
  successful `add`. A widget that starts with no accepted tag keeps the host
  input's own value (tagsinput.js:97, 442).

## Model

| member | source | states |
|---|---|---|
| Text.Trim | tagsinput.js:64 | the default transform returns a value with no white space at either end, never longer than its input |
| Text.TrimSlice | tagsinput.js:64 | the trimmed value is the slice of the input between its leading and trailing white space, so only white space is cut, and only at the ends |
| Text.TrimIdempotent | tagsinput.js:317 | trimming a trimmed value changes nothing |
| Text.TrimEmptyIffAllSpace | tagsinput.js:425-426 | a value is blank after trimming exactly when it consists of white space only |
| Text.LowerChar | tagsinput.js:244 | an ASCII capital maps to the small letter at the same position in the alphabet; any other character is kept |
| Text.Lower | tagsinput.js:244 | the lowercase form has the input's length, no ASCII capital is left, each capital becomes its small letter, and every other character is kept |
| Text.IndexOf | tagsinput.js:222 | the result is the first offset where the needle occurs, or -1 when it occurs nowhere |
| Text.ContainsIffOccurs | tagsinput.js:222 | `includes` holds exactly when the needle occurs at some offset |
| Text.Join | tagsinput.js:386 | no parts join to the empty string; otherwise the join starts with the first part, followed by the separator when there are more parts |
| Text.JoinSnoc | tagsinput.js:386 | a join of several parts is the join of all parts but the last, the separator, then the last part |
| Text.SplitOn | tagsinput.js:223 | splitting on a non-empty separator always yields at least one piece |
| Text.Split | tagsinput.js:223 | the split is empty exactly for empty text on the empty separator; with the empty separator every piece is one character; otherwise no piece contains the separator and there are several pieces exactly when it occurs |
| Text.SplitJoin | tagsinput.js:223 | for every separator, including the empty one, joining the pieces of `split` gives back the text |
| Text.SplitOnPieces | tagsinput.js:223 | no piece contains the separator, and there are several pieces exactly when the separator occurs |
| Text.JoinSplitOn | tagsinput.js:386 | splitting a comma-join of comma-free pieces gives back the pieces |
| Validation.Normalize | tagsinput.js:316-318 | without a custom transform the value is trimmed: no white space at either end and never longer than the raw value (its exact value is stated by `Validation.NormalizeDefaultTrims`) |
| Validation.NormalizeDefaultTrims | tagsinput.js:316-318 | without a transform, or with the default one, a normalised value is the trim of the raw value: the raw value with only its leading and trailing white space cut |
| Validation.Check | tagsinput.js:340-351 | each rejection reason holds exactly when its check is the first to fail, in the order min length, max length, duplicate, custom validator; the value passes exactly when all four pass |
| Validation.AppendKeepsTagsOk | tagsinput.js:428-440 | appending a non-empty value that passed validation to a collection below `maxTags` keeps the bound, per-tag validity and distinct keys |
| Validation.DeleteKeepsTagsOk | tagsinput.js:468-469 | cutting one tag out keeps the collection invariant |
| Validation.EmptyTagsOk | tagsinput.js:74 | the empty collection satisfies the invariant |
| Validation.HasExact | tagsinput.js:321-326 | a held value always has an exact match, and when case matters a match means the value is held |
| Validation.IsDuplicate | tagsinput.js:329-332 | with `allowDuplicates` nothing is a duplicate; otherwise every held value is, and when case matters exactly the held values are |
| Validation.Validate | tagsinput.js:340-351 | a value passes exactly when it is within the length bounds, is no duplicate, and the custom validator does not reject it |
| Events.Name | tagsinput.js:584 | each event kind is published under one of the six documented names |
| Events.NameInjective | tagsinput.js:584 | distinct event kinds have distinct names |
| Events.Recipients | tagsinput.js:406 | no event name is inherited from `Object.prototype`, so an event reaches exactly the handlers listed under its name, or none when nobody subscribed |
| Events.On | tagsinput.js:588-591 | `on` throws exactly when the name is not held and is a member inherited from `Object.prototype` (`_listeners` is a plain object, line 80); otherwise it appends the handler to the list of that name, creating it if absent, and leaves every other name untouched |
| Events.Without | tagsinput.js:600 | the filter keeps the other handlers in their order and as often as they were listed (an order-preserving sub-list whose multiset is the old one with the handler's count set to zero), so the removed handler is gone and a list without it is unchanged |
| Events.Off | tagsinput.js:598-601 | `off` throws exactly when the name is not held and is inherited from `Object.prototype`; on any other unknown name it changes nothing; otherwise it drops every registration of the handler under that name and nothing else |
| Events.OnReceives | tagsinput.js:404-409 | `on` never throws for an event name, and after it the handler is called for every later event of that kind, after the earlier subscribers |
| Events.OffStopsDelivery | tagsinput.js:404-409 | `off` never throws for an event name, and after it the handler is no longer called for that kind and the others are called in the same order |
| Events.OffUndoesOn | tagsinput.js:588-601 | `off` undoes an `on` of a new handler under an existing name |
| Suggestions.Filter | tagsinput.js:245-246 | the filtered list is an order-preserving sub-list holding exactly the suggestions that contain the query and are not held |
| Suggestions.FilterCounts | tagsinput.js:245-246 | the filter keeps every copy of an eligible suggestion and drops every copy of another, so with the sub-list property the result is determined |
| Suggestions.Matches | tagsinput.js:244-247 | the first `suggestionsLimit` eligible suggestions in configuration order, or all of them when there are fewer: exactly `min(limit, eligible count)` entries, each containing the lowercased query and not held |
| Suggestions.Show | tagsinput.js:238-255 | an empty query, no configured suggestions or no match hide the dropdown; otherwise the matches are shown with nothing highlighted |
| Suggestions.Move | tagsinput.js:291-309 | a hidden dropdown is unchanged; otherwise the highlight moves by the step and is clamped to the range from -1 to the last entry |
| Suggestions.MoveDownFrom | tagsinput.js:301-304 | k presses of ArrowDown advance the highlight by k, stopping at the last entry |
| Suggestions.MoveDownSaturates | tagsinput.js:301-304 | from no highlight, k presses of ArrowDown highlight entry k-1, or the last entry |
| Suggestions.MoveUpFromNoneStays | tagsinput.js:301-304 | ArrowUp with nothing highlighted never wraps to the end |
| Store.Admit | tagsinput.js:422-438 | a value is refused for the mode, for being blank, for a full collection, or for failing validation, each exactly when the earlier checks passed; a full collection is reported even for an invalid value |
| Store.Emit | tagsinput.js:404-409 | `_emit` changes only the log: nothing is appended while silent, otherwise one event carrying the kind, the value and the current tags, after the earlier ones |
| Store.Sync | tagsinput.js:385-387 | `_syncHidden` changes only the hidden value: empty for no tags, and for comma-free tags one that splits on commas back into the tags |
| Store.Add | tagsinput.js:422-446 | an accepted value is appended, the hidden value re-synced, and `add` then `change` published; a refused value leaves the tags alone and publishes `max`, `invalid` or nothing accordingly; the invariant is kept |
| Store.RemoveAt | tagsinput.js:464-481 | succeeds exactly for an unlocked widget and an index in range; on success cuts out that tag, re-syncs the hidden value and publishes `remove` with the tag then `change`; otherwise changes nothing |
| Store.FirstIndex | tagsinput.js:454 | -1 exactly when the value is not held, otherwise the first position holding it |
| Store.Remove | tagsinput.js:453-457 | removes the first exactly equal tag as `removeAt` does, succeeding exactly when the value is held and the widget unlocked |
| Store.QueriesAgree | tagsinput.js:487-506 | `count` is the length of `getTags`, and `has` holds exactly for the values `getTags` lists, which are those `remove` finds |
| Store.RemoveTakesFirstCopy | tagsinput.js:453-469 | `remove` takes away exactly one copy of the value, the first, and keeps the others in order |
| Store.RemoveThenAbsent | tagsinput.js:453-469 | without duplicates, a removed value is no longer held |
| Store.AddThenRemoveLast | tagsinput.js:440-481 | after a successful `add` the value is held and the count is one higher; `removeAt` of the last tag restores the tags and the hidden value |
| Store.HiddenEncodesTags | tagsinput.js:385-387 | when no tag contains a comma, splitting the hidden value on commas gives back the tags |
| Store.Clear | tagsinput.js:537-543 | the tags and hidden value become empty, `clear` then `change` are published, and nothing else changes |
| Store.ClearTwice | tagsinput.js:537-543 | clearing an empty widget still publishes `clear` and `change` |
| Store.AddAll | tagsinput.js:519 | adding values in turn gives the tags the reference fold `AdmitAll` admits, keeps the earlier tags in front, appends to the log exactly the events the reference fold `AdmitEvents` lists (`max`, `invalid`, or `add` then `change` per value, each with the tags of its moment) and nothing while silent, keeps the invariant, and re-syncs the hidden value when a value was accepted |
| Store.AdmitAllLocked | tagsinput.js:423 | a locked widget admits no value of a sequence |
| Store.Fill | tagsinput.js:515-524 | the tags become those admitted from an empty collection, exactly one `change` is published, silent mode ends off, and the hidden value is in sync |
| Store.Reset | tagsinput.js:548-550 | `reset` holds the admitted initial tags and publishes a single `change` |
| Store.FillWhileLockedEmpties | tagsinput.js:515-519 | `fill` and `reset` on a readonly or disabled widget leave it with no tag |
| Store.InitAsWritten | tagsinput.js:55-100 | the constructor as written adds the initial tags while the configured modes are already in force |
| Store.Init | tagsinput.js:96-100 | the intended constructor holds the initial tags admitted from an empty, unlocked collection, then takes the configured modes; the hidden value is synced when some tag was accepted |
| Store.ReadonlyDropsInitialTags | tagsinput.js:55-100 | with `readonly` and initial tag "a", the written constructor yields no tag and the intended one yields "a" |
| Store.ResetRestoresInitialTags | tagsinput.js:77 | on an unlocked widget, `reset` restores exactly the tags the intended constructor held |
| Store.OperationsKeepInv | tagsinput.js:422-550 | `add`, `removeAt`, `remove`, `clear`, `fill` and `reset` all keep the widget invariant |
| Store.RemoveAtKeepsInv | tagsinput.js:464-469 | `removeAt` keeps the widget invariant whether or not it removes a tag |
| Controller.OnKeydown | tagsinput.js:168-214 | no key press changes the modes or silent mode, and every one leaves a well-formed dropdown; only a separator, Enter or Backspace can change the tags, the log, the hidden value or the field |
| Controller.SeparatorCommits | tagsinput.js:171-177 | a separator key adds the typed text as `add` does, with its events and hidden value, then empties the field and hides the dropdown |
| Controller.OtherKeysKeepTags | tagsinput.js:199-212 | Escape, the arrows and any other non-separator key keep the tags, log, hidden value and field; Escape hides the dropdown, an arrow moves the highlight by one and stops at either end, and any other key changes nothing |
| Controller.FirstSeparator | tagsinput.js:221-222 | the index of the first listed separator the text contains, or -1 when none occurs |
| Controller.OnInput | tagsinput.js:217-231 | input never changes the modes and keeps a well-formed dropdown; without a separator it only sets the field and the dropdown; with one, the dropdown stays, all pieces but the last are admitted in turn with the events `AdmitEvents` lists appended to the log, the hidden value is re-synced exactly when a tag was added, and the field holds the last piece, or "undefined" when there is none |
| Controller.OnPick | tagsinput.js:269-273 | picking a suggestion adds it as `add` would, with the events `add` publishes and its hidden value, empties the field and hides the dropdown, and leaves the modes alone |
| Controller.OnBlur | tagsinput.js:157-160 | losing focus hides the dropdown and keeps the tags, the typed text, the log, the hidden value and the modes |
| Controller.EnterCommits | tagsinput.js:181-191 | when Enter is not itself a listed separator, Enter adds the highlighted suggestion when there is one and the typed text otherwise, then empties the field and hides the dropdown, with the events `add` publishes and its hidden value |
| Controller.BackspaceRemovesLast | tagsinput.js:193-198 | when Backspace is not itself a listed separator, Backspace in an empty field removes the last tag with its events; otherwise it changes nothing |
| Controller.PasteSplitsOnFirstSeparator | tagsinput.js:217-228 | input with a separator adds all pieces but the last and keeps the last in the field; the pieces plus the field join back to the input, except for empty text on an empty separator, where the field becomes "undefined" |
| Controller.TypingShowsSuggestions | tagsinput.js:217-231 | input without a separator only sets the field and recomputes the dropdown |
| Controller.KeydownKeepsInv | tagsinput.js:168-214 | every key press keeps the widget invariant |
| Controller.InputKeepsInv | tagsinput.js:217-273 | input events, suggestion picks and blur keep the widget invariant |
| Scenarios.DefaultOptions | tagsinput.js:55-71 | with the default options the widget starts with no tag (`initialTags=[]`), no dropdown opens (`suggestions=[]`), only a comma separates, and a value is trimmed and refused only when blank or already held exactly, with no bound on count or length |
| Scenarios.AdmitsNewWords | tagsinput.js:422-446 | under the default options, words that are not held and pairwise different are all accepted, in the order given |
| Scenarios.AddKeepsOrder | tagsinput.js:440 | adding "a", "b", "c" yields exactly those tags in that order |
| Scenarios.CaseInsensitiveDuplicate | tagsinput.js:321-343 | with `caseSensitive: false`, "foo" after "Foo" is refused, reported as `invalid`, and the count stays 1 |
| Scenarios.CapacityBeforeValidation | tagsinput.js:428-432 | with `maxTags` 2 and two tags, adding a duplicate is reported as `max` |
| Scenarios.FillPublishesOneChange | tagsinput.js:515-524 | filling with three values publishes a single `change` carrying all three |
| Scenarios.MinimumLength | tagsinput.js:341 | with `minLength` 2, "a" is refused and "ab" accepted |
| Scenarios.SuggestionFiltering | tagsinput.js:244-247 | the query "ap" over apple, banana and apricot shows apple and apricot |
| Scenarios.HeldTagNotSuggested | tagsinput.js:246 | a held tag is not suggested even though it matches |
| Scenarios.NavigationSaturates | tagsinput.js:301-304 | five presses of ArrowDown over three suggestions highlight the third |
| Scenarios.RemoveByValueAndIndex | tagsinput.js:453-466 | `remove("b")` leaves a and c; `removeAt(5)` on three tags fails and changes nothing |

## Left out

- Rendering and the DOM are not modelled: the wrapper, the chips, the `removing` animation, `_shake`, the highlight markup of `_escHtml`, `setReadonly` / `setDisabled` styling, `focus` and `destroy`. Only the state they carry is kept: the tags, modes, hidden value, dropdown and field text.
- The constructor's element lookup and its `<input>` check are left out. The host input's value is a parameter of `Store.Init`.
- Timers are left out. The 150 ms blur delay only orders a pending pick before the hide, and `Controller.OnBlur` is applied after it.
- Handlers are foreign code, identified by a number. The model records which events are published and to which handlers, not what the handlers do. Re-entrant calls from a handler and the `try`/`catch` around each call are not modelled.
- `transform` and `validate` are total functions given in the options. Exceptions they throw, and their effect on `fill`'s `finally`, are not modelled.
- `String(value)` coercion of non-string inputs is not modelled: every value is a string.
- `Text.Lower` lowercases ASCII letters only, whereas `toLowerCase` covers all of Unicode.
- Lengths are counted in characters, not UTF-16 code units.
- Numeric options are `nat`, and `Infinity` is `None`. Negative, fractional or `NaN` bounds are not modelled.
- Text.Join: its own contract fixes only the first part and the separator after it; the decomposition at the last part is the separate lemma `Text.JoinSnoc`, so that the many uses of `Join` do not carry an inductive fact.
- Store.RemoveAt: the JavaScript index is a number and the model takes an `int`. `removeAt(NaN)` or `removeAt(0.5)` passes both guards of line 466, reads `undefined` as the removed value, and `splice` truncates the index to 0, so the first tag is removed, `remove` is published without a value, and `true` is returned. Non-integer indexes are not modelled.
- `Store.Init`'s hidden-value clause reflects that the hidden input is only re-synced by a successful `add`.
- `theme` and `placeholder` are presentation only and are not modelled.

## Findings

| source | as written | input that shows it | evidently intended | confidence | as-written member | corrected member |
|---|---|---|---|---|---|---|
| tagsinput.js:55-100 | the merged options already carry `readonly` / `disabled` when the constructor adds `initialTags`, and `add` refuses every value in either mode | `new TagsInput(el, {readonly: true, initialTags: ["a"]})` holds no tag | the initial tags are shown and the mode applies to later edits, as `setReadonly` is called only after the adds | medium, not executed | Store.InitAsWritten (shown by Store.ReadonlyDropsInitialTags) | Store.Init |

=== FILE: controller.dfy ===
/** The keyboard and input handlers of the visible text field (`_onKeydown`,
    `_onInput`), the mouse selection of a suggestion, and blur. Each is a
    transition of the widget state; the text field's content is `buffer`. */
module Controller {
  import opened Wrappers
  import Text
  import opened Validation
  import opened Events
  import opened Suggestions
  import opened Store

  const Enter: string := "Enter"
  const Backspace: string := "Backspace"
  const Escape: string := "Escape"
  const ArrowDown: string := "ArrowDown"
  const ArrowUp: string := "ArrowUp"

  /** What Enter commits: the highlighted suggestion if there is one, else the
      text typed so far. */
  function EnterValue(w: Widget): string
    requires ViewOk(w.view)
  {
    if w.view.Shown? && w.view.active >= 0 then w.view.items[w.view.active] else w.buffer
  }

  /** Adds `raw`, then empties the text field and hides the dropdown, whether or
      not the value was accepted. */
  function Commit(cfg: Config, w: Widget, raw: string): (r: Widget)
    ensures r.buffer == "" && r.view == Hidden
    ensures r.tags == AdmitAll(cfg, Locked(w), w.tags, [raw])
    ensures r.readonly == w.readonly && r.disabled == w.disabled && r.silent == w.silent
  {
    Add(cfg, w, raw).0.(buffer := "", view := Hidden)
  }

  /** `_onKeydown(key)`. A key listed among the separators commits the text
      field; otherwise Enter commits the highlighted suggestion or the text,
      Backspace in an empty field removes the last tag, Escape hides the
      dropdown, the arrows move the highlight, and any other key changes
      nothing here (its effect on the text arrives as an input event). */
  function OnKeydown(cfg: Config, w: Widget, key: string): (r: Widget)
    requires ViewOk(w.view)
    ensures ViewOk(r.view)
    ensures r.readonly == w.readonly && r.disabled == w.disabled && r.silent == w.silent
    ensures key !in cfg.separators && key != Enter && key != Backspace ==>
      r.tags == w.tags && r.log == w.log && r.hidden == w.hidden && r.buffer == w.buffer
  {
    if key in cfg.separators then Commit(cfg, w, w.buffer)
    else if key == Enter then Commit(cfg, w, EnterValue(w))
    else if key == Backspace then
      if w.buffer == "" && |w.tags| > 0 then RemoveAt(w, |w.tags| - 1).0 else w
    else if key == Escape then w.(view := Hidden)
    else if key == ArrowDown then w.(view := Move(w.view, 1))
    else if key == ArrowUp then w.(view := Move(w.view, -1))
    else w
  }

  /** The index of the first separator, in configuration order, that occurs in
      `text`, or -1 when none does. */
  function FirstSeparator(seps: seq<string>, text: string): (i: int)
    ensures i == -1 || (0 <= i < |seps| && Text.Contains(text, seps[i]))
    ensures forall j :: 0 <= j < |seps| && (i == -1 || j < i) ==> !Text.Contains(text, seps[j])
    decreases |seps|
  {
    if seps == [] then -1
    else if Text.Contains(text, seps[0]) then 0
    else
      var k := FirstSeparator(seps[1..], text);
      if k == -1 then -1 else k + 1
  }

  /** Every piece but the last (`parts.slice(0, -1)`). */
  function AllButLast(parts: seq<string>): seq<string> {
    if parts == [] then [] else parts[..|parts| - 1]
  }

  /** `_onInput` with the field now holding `text`. When some separator occurs,
      the text is split on the first listed one that does: every piece but the
      last is added in turn, publishing what those `add` calls publish and
      re-syncing the hidden value when one was accepted; the last piece stays
      in the field (JavaScript writes "undefined" there when the split has no
      piece at all, which only an empty separator on empty text produces); the
      dropdown is left as it was. Without a separator the dropdown is
      recomputed for the text. */
  function OnInput(cfg: Config, w: Widget, text: string): (r: Widget)
    ensures r.readonly == w.readonly && r.disabled == w.disabled && r.silent == w.silent
    ensures ViewOk(w.view) ==> ViewOk(r.view)
    ensures var i := FirstSeparator(cfg.separators, text);
      && (i == -1 ==> r.buffer == text && r.tags == w.tags && r.log == w.log && r.hidden == w.hidden)
      && (i != -1 ==>
            var parts := Text.Split(text, cfg.separators[i]);
            && r.view == w.view
            && r.tags == AdmitAll(cfg, Locked(w), w.tags, AllButLast(parts))
            && r.log == w.log + Published(w, AdmitEvents(cfg, Locked(w), w.tags, AllButLast(parts)))
            && r.hidden == (if |r.tags| > |w.tags| then Text.Join(r.tags, Delimiter) else w.hidden)
            && r.buffer == if parts == [] then "undefined" else parts[|parts| - 1])
  {
    var typed := w.(buffer := text);
    var i := FirstSeparator(cfg.separators, text);
    if i == -1 then typed.(view := Show(cfg, w.tags, text))
    else
      var parts := Text.Split(text, cfg.separators[i]);
      AddAll(cfg, typed, AllButLast(parts)).(buffer := if parts == [] then "undefined" else parts[|parts| - 1])
  }

  /** The `mousedown` handler of the suggestion at `i`: it is added as typed
      in the suggestion list, the field is emptied and the dropdown hidden. */
  function OnPick(cfg: Config, w: Widget, i: int): (r: Widget)
    requires w.view.Shown? && 0 <= i < |w.view.items|
    ensures r.buffer == "" && r.view == Hidden
    ensures r.tags == AdmitAll(cfg, Locked(w), w.tags, [w.view.items[i]])
    ensures r.log == Add(cfg, w, w.view.items[i]).0.log && r.hidden == Add(cfg, w, w.view.items[i]).0.hidden
    ensures r.readonly == w.readonly && r.disabled == w.disabled && r.silent == w.silent
  {
    Commit(cfg, w, w.view.items[i])
  }

  /** Losing focus hides the dropdown (after a delay that lets a pending
      mouse selection run first). */
  function OnBlur(w: Widget): (r: Widget)
    ensures r.view == Hidden && r.tags == w.tags && r.buffer == w.buffer
    ensures r.log == w.log && r.hidden == w.hidden
    ensures r.readonly == w.readonly && r.disabled == w.disabled && r.silent == w.silent
  {
    w.(view := Hidden)
  }

  /* ------------------------------------------------------------ properties */

  /** A separator key commits the typed text: it is added as by `add`, with
      the events `add` publishes, and the field and the dropdown are cleared. */
  lemma SeparatorCommits(cfg: Config, w: Widget, key: string)
    requires ViewOk(w.view) && key in cfg.separators
    ensures var r := OnKeydown(cfg, w, key);
      && r.buffer == "" && r.view == Hidden
      && r.tags == AdmitAll(cfg, Locked(w), w.tags, [w.buffer])
      && r.log == Add(cfg, w, w.buffer).0.log
      && r.hidden == Add(cfg, w, w.buffer).0.hidden
  {
  }

  /** Escape, the arrows and every other key that is no separator leave the
      tags, the log, the hidden value and the field alone. Escape hides the
      dropdown; an arrow moves the highlight of a shown dropdown by one, stopping
      at either end, and does nothing to a hidden one; any other key changes
      nothing at all. */
  lemma OtherKeysKeepTags(cfg: Config, w: Widget, key: string)
    requires ViewOk(w.view) && key !in cfg.separators && key != Enter && key != Backspace
    ensures var r := OnKeydown(cfg, w, key);
      && r.tags == w.tags && r.log == w.log && r.hidden == w.hidden && r.buffer == w.buffer
      && (key == Escape ==> r.view == Hidden)
      && (w.view.Hidden? ==> r.view == Hidden)
      && (w.view.Shown? && key == ArrowDown ==>
            r.view.Shown? && r.view.items == w.view.items
            && r.view.active == (if w.view.active + 1 < |w.view.items| then w.view.active + 1 else w.view.active))
      && (w.view.Shown? && key == ArrowUp ==>
            r.view.Shown? && r.view.items == w.view.items
            && r.view.active == (if w.view.active >= 0 then w.view.active - 1 else -1))
      && (key !in {Escape, ArrowDown, ArrowUp} ==> r == w)
  {
  }

  /** Enter with a highlighted suggestion adds that suggestion, never the typed
      text; without one it adds the typed text. Either way the field ends empty
      and the dropdown hidden. */
  lemma EnterCommits(cfg: Config, w: Widget)
    requires ViewOk(w.view) && Enter !in cfg.separators
    ensures var r := OnKeydown(cfg, w, Enter);
      && r.buffer == "" && r.view == Hidden
      && (w.view.Shown? && w.view.active >= 0 ==>
            r.tags == AdmitAll(cfg, Locked(w), w.tags, [w.view.items[w.view.active]]))
      && (w.view.Hidden? || w.view.active < 0 ==> r.tags == AdmitAll(cfg, Locked(w), w.tags, [w.buffer]))
      && r.log == Add(cfg, w, EnterValue(w)).0.log
      && r.hidden == Add(cfg, w, EnterValue(w)).0.hidden
  {
  }

  /** Backspace in an empty field removes the last tag (publishing `remove`
      with it, then `change`); in a non-empty field it changes nothing here. */
  lemma BackspaceRemovesLast(cfg: Config, w: Widget)
    requires ViewOk(w.view) && Backspace !in cfg.separators
    ensures var r := OnKeydown(cfg, w, Backspace);
      && (w.buffer != "" || w.tags == [] || Locked(w) ==> r == w)
      && (w.buffer == "" && w.tags != [] && !Locked(w) ==>
            && r.tags == w.tags[..|w.tags| - 1]
            && r.log == w.log + Published(w, [Event(RemoveEv, Some(w.tags[|w.tags| - 1]), r.tags),
                                             Event(ChangeEv, None, r.tags)]))
  {
  }

  /** A pasted text containing a separator is cut into pieces on the first
      listed separator present; the pieces added in turn, followed by what is
      left in the field, join back into exactly the pasted text, and the
      dropdown does not change. */
  lemma PasteSplitsOnFirstSeparator(cfg: Config, w: Widget, text: string)
    requires FirstSeparator(cfg.separators, text) != -1
    ensures var sep := cfg.separators[FirstSeparator(cfg.separators, text)];
      var r := OnInput(cfg, w, text);
      && Text.Contains(text, sep)
      && r.view == w.view
      && (sep != "" || text != "" ==> Text.Join(AllButLast(Text.Split(text, sep)) + [r.buffer], sep) == text)
      && (sep == "" && text == "" ==> r.buffer == "undefined")
      && r.tags == AdmitAll(cfg, Locked(w), w.tags, AllButLast(Text.Split(text, sep)))
  {
    var sep := cfg.separators[FirstSeparator(cfg.separators, text)];
    var parts := Text.Split(text, sep);
    if parts != [] {
      JoinBack(text, sep);
    }
  }

  /** The pieces of a split, all but the last followed by the last, join back
      into the text. */
  lemma JoinBack(text: string, sep: string)
    requires Text.Split(text, sep) != []
    ensures var parts := Text.Split(text, sep);
      Text.Join(AllButLast(parts) + [parts[|parts| - 1]], sep) == text
  {
    var parts := Text.Split(text, sep);
    assert AllButLast(parts) + [parts[|parts| - 1]] == parts;
    Text.SplitJoin(text, sep);
  }

  /** Typing text with no separator in it only updates the field and
      recomputes the dropdown against it. */
  lemma TypingShowsSuggestions(cfg: Config, w: Widget, text: string)
    requires forall s :: s in cfg.separators ==> !Text.Contains(text, s)
    ensures OnInput(cfg, w, text) == w.(buffer := text, view := Show(cfg, w.tags, text))
  {
  }

  /** Every key press keeps the widget invariant. */
  lemma KeydownKeepsInv(cfg: Config, w: Widget, key: string)
    requires Inv(cfg, w)
    ensures Inv(cfg, OnKeydown(cfg, w, key))
  {
    if key !in cfg.separators && key == Backspace && w.buffer == "" && |w.tags| > 0 && !Locked(w) {
      DeleteKeepsTagsOk(cfg, w.tags, |w.tags| - 1);
    }
  }

  /** Every input event, mouse selection and blur keeps the widget invariant. */
  lemma InputKeepsInv(cfg: Config, w: Widget, text: string, i: int)
    requires Inv(cfg, w)
    ensures Inv(cfg, OnInput(cfg, w, text))
    ensures Inv(cfg, OnBlur(w))
    ensures w.view.Shown? && 0 <= i < |w.view.items| ==> Inv(cfg, OnPick(cfg, w, i))
  {
  }
}

=== FILE: events.dfy ===
/** The widget's events: what `_emit` publishes, and the listener registry kept
    by `on` / `off`. Handlers are foreign code and are identified by a number;
    the model records what is published and to whom, not what handlers do. */
module Events {
  import opened Wrappers
  import opened Sequences

  /** The six event names the widget emits. */
  datatype Kind = AddEv | RemoveEv | InvalidEv | MaxEv | ClearEv | ChangeEv

  /** The name under which a handler subscribes to `k`. */
  function Name(k: Kind): (n: string)
    ensures n in {"add", "remove", "invalid", "max", "clear", "change"}
  {
    match k
    case AddEv => "add"
    case RemoveEv => "remove"
    case InvalidEv => "invalid"
    case MaxEv => "max"
    case ClearEv => "clear"
    case ChangeEv => "change"
  }

  /** Distinct kinds are published under distinct names. */
  lemma NameInjective(k1: Kind, k2: Kind)
    ensures Name(k1) == Name(k2) ==> k1 == k2
  {
  }

  /** One published event: its kind, the `value` field when the event carries
      one, and the snapshot of the tags taken when it was emitted. */
  datatype Event = Event(kind: Kind, value: Option<string>, tags: seq<string>)

  /** Handler identity (JavaScript compares handlers by reference). */
  type Handler = nat

  /** `_listeners`: handlers per event name, in subscription order. It is a
      plain JavaScript object, so names it does not hold still look up the
      members it inherits from `Object.prototype`. */
  type Registry = map<string, seq<Handler>>

  /** The names of the members of `Object.prototype` (section 20.1.3 of
      ECMA-262, with the legacy accessors of its Annex B). Looking one of them
      up in a registry that does not hold it yields a function or an object:
      truthy, but not an array. */
  const Inherited: set<string> := {
    "constructor", "hasOwnProperty", "isPrototypeOf", "propertyIsEnumerable",
    "toLocaleString", "toString", "valueOf", "__proto__",
    "__defineGetter__", "__defineSetter__", "__lookupGetter__", "__lookupSetter__"}

  /** `this._listeners[name]` is an inherited member, so the guard of `on` /
      `off` lets it through and the array method called on it then throws a
      TypeError. */
  predicate Throws(reg: Registry, name: string) {
    name !in reg && name in Inherited
  }

  /** The handlers `_emit` calls for an event of kind `k`, in order. A throwing
      handler is caught and logged, so each of them is called. No event name is
      inherited from `Object.prototype`, so the `|| []` fallback is taken
      exactly for a name nobody subscribed to. */
  function Recipients(reg: Registry, k: Kind): (r: seq<Handler>)
    ensures Name(k) !in Inherited
    ensures Name(k) in reg ==> r == reg[Name(k)]
    ensures Name(k) !in reg ==> r == []
  {
    if Name(k) in reg then reg[Name(k)] else []
  }

  /** `on`: appends `h` to the handlers of `name`, creating the list if needed;
      `None` when the call throws, which leaves the registry as it was. */
  function On(reg: Registry, name: string, h: Handler): (r: Option<Registry>)
    ensures r.None? <==> Throws(reg, name)
    ensures r.Some? ==> name in r.value && r.value[name] == (if name in reg then reg[name] else []) + [h]
    ensures r.Some? ==> forall n :: n != name ==> (n in r.value <==> n in reg)
    ensures r.Some? ==> forall n :: n in reg && n != name ==> r.value[n] == reg[n]
  {
    if Throws(reg, name) then None
    else Some(reg[name := (if name in reg then reg[name] else []) + [h]])
  }

  /** Every handler of `hs` except `h`, in their order (the `filter` of `off`):
      every copy of `h` goes, every other handler stays as often as it was. */
  function Without(hs: seq<Handler>, h: Handler): (r: seq<Handler>)
    ensures Subsequence(r, hs)
    ensures multiset(r) == multiset(hs)[h := 0]
    ensures h !in r
    ensures forall x :: x in r <==> x in hs && x != h
    ensures h !in hs ==> r == hs
    decreases |hs|
  {
    if hs == [] then []
    else
      assert hs == [hs[0]] + hs[1..];
      if hs[0] == h then Without(hs[1..], h)
      else [hs[0]] + Without(hs[1..], h)
  }

  /** `off`: nothing when `name` was never subscribed to (and it is no
      inherited name); otherwise every registration of `h` under `name` is
      dropped, the others keep their order. `None` when the call throws. */
  function Off(reg: Registry, name: string, h: Handler): (r: Option<Registry>)
    ensures r.None? <==> Throws(reg, name)
    ensures name !in reg && name !in Inherited ==> r == Some(reg)
    ensures name in reg ==> r.Some? && name in r.value && r.value[name] == Without(reg[name], h)
    ensures r.Some? ==> forall n :: n != name ==> (n in r.value <==> n in reg)
    ensures r.Some? ==> forall n :: n in reg && n != name ==> r.value[n] == reg[n]
  {
    if Throws(reg, name) then None
    else if name !in reg then Some(reg)
    else Some(reg[name := Without(reg[name], h)])
  }

  /** A handler subscribed with `on` receives every later event of that kind,
      after the handlers subscribed before it. */
  lemma OnReceives(reg: Registry, k: Kind, h: Handler)
    ensures On(reg, Name(k), h).Some?
    ensures Recipients(On(reg, Name(k), h).value, k) == Recipients(reg, k) + [h]
  {
  }

  /** After `off`, the handler receives no event of that kind, and the other
      handlers keep receiving in the same order. */
  lemma OffStopsDelivery(reg: Registry, k: Kind, h: Handler)
    ensures Off(reg, Name(k), h).Some?
    ensures h !in Recipients(Off(reg, Name(k), h).value, k)
    ensures Recipients(Off(reg, Name(k), h).value, k) == Without(Recipients(reg, k), h)
  {
  }

  /** `off` undoes `on` for a handler that was not yet subscribed under an
      existing name. */
  lemma {:induction false} OffUndoesOn(reg: Registry, name: string, h: Handler)
    requires name in reg && h !in reg[name]
    ensures On(reg, name, h).Some? && Off(On(reg, name, h).value, name, h) == Some(reg)
  {
    WithoutFreshAppend(reg[name], h);
    assert reg[name := reg[name] + [h]][name := reg[name]] == reg;
  }

  /** Appending a handler not yet listed and then filtering it out gives the
      list back. */
  lemma WithoutFreshAppend(hs: seq<Handler>, h: Handler)
    requires h !in hs
    ensures Without(hs + [h], h) == hs
  {
    WithoutAppend(hs, h);
  }

  /** Dropping `h` from a list that ends with `h` drops that last entry too. */
  lemma {:induction false} WithoutAppend(hs: seq<Handler>, h: Handler)
    ensures Without(hs + [h], h) == Without(hs, h)
    decreases |hs|
  {
    if hs != [] {
      assert (hs + [h])[1..] == hs[1..] + [h];
      WithoutAppend(hs[1..], h);
    }
  }
}

=== FILE: scenarios.dfy ===
/** Concrete runs of the model on the scenarios the widget's documentation
    describes, each one an instance of the general contracts. */
module Scenarios {
  import opened Wrappers
  import Text
  import opened Validation
  import opened Events
  import opened Suggestions
  import opened Store
  import Controller

  /** A fresh, empty widget whose host input was empty. */
  function Start(): Widget {
    Fresh("", false, false)
  }

  /** A non-empty string of ASCII letters. */
  predicate Word(s: string) {
    s != [] && forall i :: 0 <= i < |s| ==> 'a' <= s[i] <= 'z' || 'A' <= s[i] <= 'Z'
  }

  /** Under the default transform, normalising is trimming. */
  lemma DefaultNormalize(cfg: Config, raw: string)
    requires cfg.transform.TrimDefault?
    ensures Normalize(cfg, raw) == Text.Trim(raw)
  {
  }

  /** A word is its own normal form under the default options. */
  lemma WordNormal(cfg: Config, s: string)
    requires Word(s) && cfg.transform.TrimDefault?
    ensures Normalize(cfg, s) == s
  {
    DefaultNormalize(cfg, s);
    assert Text.Trimmed(s);
    Text.TrimOfTrimmed(s);
  }

  /** A value not held is no exact match when case matters. */
  lemma NotHeldNoExact(cfg: Config, tags: seq<string>, s: string)
    requires cfg.caseSensitive && s !in tags
    ensures !HasExact(cfg, tags, s)
  {
    forall i | 0 <= i < |tags|
      ensures Key(cfg, tags[i]) != Key(cfg, s)
    {
      assert tags[i] in tags;
    }
  }

  /** What the default options mean for a caller: the widget starts with no
      tag and its host value, no dropdown ever opens, only a comma separates,
      and a value is trimmed and then refused only when it is blank or already
      held exactly; there is no limit on the number or the length of tags. */
  lemma DefaultOptions(host: string, tags: seq<string>, raw: string, query: string, text: string)
    ensures Init(Defaults(), host).tags == [] && Init(Defaults(), host).hidden == host
    ensures Show(Defaults(), tags, query) == Hidden
    ensures Controller.FirstSeparator(Defaults().separators, text) != -1 <==> Text.Contains(text, ",")
    ensures var v := Text.Trim(raw);
      Admit(Defaults(), false, tags, raw) ==
        if v == "" then Empty
        else if v in tags then Invalid(v, Duplicate)
        else Accepted(v)
  {
    var cfg := Defaults();
    var v := Text.Trim(raw);
    if v != "" {
      if v in tags {
        var i :| 0 <= i < |tags| && tags[i] == v;
        assert Key(cfg, tags[i]) == Key(cfg, v);
      } else {
        NotHeldNoExact(cfg, tags, v);
      }
    }
  }

  /** A normalised value that passes every check is accepted. */
  lemma AdmitAccepts(cfg: Config, tags: seq<string>, raw: string, v: string)
    requires Normalize(cfg, raw) == v && v != "" && !AtCapacity(cfg, tags)
    requires Check(cfg, tags, v) == None
    ensures Admit(cfg, false, tags, raw) == Accepted(v)
  {
  }

  /** Under the default options, a word not yet held is accepted. */
  lemma AcceptsNewWord(cfg: Config, tags: seq<string>, s: string)
    requires Plain(cfg)
    requires Word(s) && s !in tags && cfg.minLength <= |s|
    ensures Admit(cfg, false, tags, s) == Accepted(s)
  {
    WordNormal(cfg, s);
    NotHeldNoExact(cfg, tags, s);
    assert LengthOk(cfg, s);
    AdmitAccepts(cfg, tags, s, s);
  }

  /** The default options, whatever the minimum length and the suggestions. */
  predicate Plain(cfg: Config) {
    && cfg.transform.TrimDefault? && cfg.validate.None?
    && cfg.caseSensitive && !cfg.allowDuplicates
    && cfg.maxLength.None? && cfg.maxTags.None?
  }

  /** Each value is a word not held yet, counting the values before it as
      held. */
  predicate NewWords(tags: seq<string>, vals: seq<string>)
    decreases |vals|
  {
    vals == [] || (Word(vals[0]) && vals[0] !in tags && NewWords(tags + [vals[0]], vals[1..]))
  }

  /** Under the default options, new words added in turn are all kept, in the
      order they were added. */
  lemma {:induction false} AdmitsNewWords(cfg: Config, tags: seq<string>, vals: seq<string>)
    requires Plain(cfg) && cfg.minLength <= 1
    requires NewWords(tags, vals)
    ensures AdmitAll(cfg, false, tags, vals) == tags + vals
    decreases |vals|
  {
    if vals != [] {
      var v := vals[0];
      AcceptsNewWord(cfg, tags, v);
      AdmitAllAccepted(cfg, false, tags, vals, v);
      AdmitsNewWords(cfg, tags + [v], vals[1..]);
      assert tags + [v] + vals[1..] == tags + vals;
    }
  }

  /** Admitting "a", "b", "c" in turn keeps them in that order. */
  lemma AdmitsABC()
    ensures AdmitAll(Defaults(), false, [], ["a", "b", "c"]) == ["a", "b", "c"]
  {
    var abc := ["a", "b", "c"];
    assert abc[1..] == ["b", "c"] && ["b", "c"][1..] == ["c"];
    assert NewWords([], abc);
    assert [] + abc == abc;
    AdmitsNewWords(Defaults(), [], abc);
  }

  /** Adding "a", "b", "c" keeps them in that order. */
  lemma AddKeepsOrder()
    ensures AddAll(Defaults(), Start(), ["a", "b", "c"]).tags == ["a", "b", "c"]
  {
    AdmitsABC();
  }

  /** Case-insensitive duplicates: after "Foo", adding "foo" is refused and
      reported as `invalid`. */
  lemma CaseInsensitiveDuplicate()
    ensures var cfg := Defaults().(caseSensitive := false);
      var w := Add(cfg, Start(), "Foo").0;
      && w.tags == ["Foo"]
      && !Add(cfg, w, "foo").1
      && Count(Add(cfg, w, "foo").0) == 1
      && Add(cfg, w, "foo").0.log == w.log + [Event(InvalidEv, Some("foo"), ["Foo"])]
  {
    var cfg := Defaults().(caseSensitive := false);
    FooThenFoo(cfg);
  }

  /** The two decisions of the case-insensitive scenario. */
  lemma FooThenFoo(cfg: Config)
    requires cfg == Defaults().(caseSensitive := false)
    ensures Admit(cfg, false, [], "Foo") == Accepted("Foo")
    ensures Admit(cfg, false, ["Foo"], "foo") == Invalid("foo", Duplicate)
  {
    FooFirst(cfg);
    FooSecond(cfg);
  }

  /** "Foo" is accepted into an empty collection. */
  lemma FooFirst(cfg: Config)
    requires cfg == Defaults().(caseSensitive := false)
    ensures Admit(cfg, false, [], "Foo") == Accepted("Foo")
  {
    WordNormal(cfg, "Foo");
    assert Check(cfg, [], "Foo") == None;
  }

  /** Once "Foo" is held, "foo" is refused as a duplicate. */
  lemma FooSecond(cfg: Config)
    requires cfg == Defaults().(caseSensitive := false)
    ensures Admit(cfg, false, ["Foo"], "foo") == Invalid("foo", Duplicate)
  {
    WordNormal(cfg, "foo");
    SameKey(cfg);
    assert Check(cfg, ["Foo"], "foo") == Some(Duplicate);
  }

  /** "Foo" and "foo" share a comparison key once case is ignored. */
  lemma SameKey(cfg: Config)
    requires !cfg.caseSensitive && !cfg.allowDuplicates
    ensures IsDuplicate(cfg, ["Foo"], "foo")
  {
    assert Text.Lower("Foo") == "foo";
    assert Text.Lower("foo") == "foo";
    assert Key(cfg, ["Foo"][0]) == Key(cfg, "foo");
  }

  /** With `maxTags` 2, a third value is reported as `max`, not `invalid`,
      even when it is also a duplicate. */
  lemma CapacityBeforeValidation()
    ensures var cfg := Defaults().(maxTags := Some(2));
      var w := Start().(tags := ["a", "b"]);
      Add(cfg, w, "a").0.log == w.log + [Event(MaxEv, Some("a"), ["a", "b"])]
  {
    WordNormal(Defaults().(maxTags := Some(2)), "a");
  }

  /** `fill(["a", "b", "c"])` holds exactly those tags and publishes one
      `change`, not one per tag. */
  lemma FillPublishesOneChange()
    ensures Fill(Defaults(), Start(), ["a", "b", "c"]).tags == ["a", "b", "c"]
    ensures Fill(Defaults(), Start(), ["a", "b", "c"]).log == [Event(ChangeEv, None, ["a", "b", "c"])]
  {
    AdmitsABC();
  }

  /** With `minLength` 2, "a" is too short and "ab" is accepted. */
  lemma MinimumLength()
    ensures var cfg := Defaults().(minLength := 2);
      !Add(cfg, Start(), "a").1 && Add(cfg, Start(), "ab").1
  {
    var cfg := Defaults().(minLength := 2);
    TooShortA(cfg);
    LongEnoughAb(cfg);
  }

  /** With `minLength` 2, "a" is refused as too short. */
  lemma TooShortA(cfg: Config)
    requires cfg.transform.TrimDefault? && cfg.minLength == 2 && cfg.maxTags.None?
    ensures Admit(cfg, false, [], "a") == Invalid("a", TooShort)
  {
    WordNormal(cfg, "a");
    assert Check(cfg, [], "a") == Some(TooShort);
  }

  /** With `minLength` 2, "ab" is accepted. */
  lemma LongEnoughAb(cfg: Config)
    requires Plain(cfg) && cfg.minLength == 2
    ensures Admit(cfg, false, [], "ab") == Accepted("ab")
  {
    AcceptsNewWord(cfg, [], "ab");
  }

  /** Which of the three suggestions contain "ap". */
  lemma ApMatches()
    ensures Text.Contains(Text.Lower("apple"), Text.Lower("ap"))
    ensures Text.Contains(Text.Lower("apricot"), Text.Lower("ap"))
    ensures !Text.Contains(Text.Lower("banana"), Text.Lower("ap"))
  {
    assert Text.Lower("ap") == "ap";
    assert Text.Lower("apple") == "apple";
    assert Text.Lower("banana") == "banana";
    assert Text.Lower("apricot") == "apricot";
    assert Text.OccursAt("apple", "ap", 0);
    assert Text.OccursAt("apricot", "ap", 0);
    Text.ContainsIffOccurs("banana", "ap");
    forall k | 0 <= k <= 4
      ensures !Text.OccursAt("banana", "ap", k)
    {
      assert "banana"[k..k + 2][1] == "banana"[k + 1] != 'p';
    }
  }

  /** Suggestions "apple", "banana", "apricot" for the query "ap" are "apple"
      and "apricot" in that order. */
  lemma SuggestionFiltering(cfg: Config)
    requires cfg == Defaults().(suggestions := ["apple", "banana", "apricot"])
    ensures Matches(cfg, [], "ap") == ["apple", "apricot"]
  {
    ApMatches();
    var q := Text.Lower("ap");
    assert !HasExact(cfg, [], "apple") && !HasExact(cfg, [], "apricot");
    FilterThree(cfg, [], q, "apple", "banana", "apricot");
  }

  /** "apple" and "apricot" differ. */
  lemma AppleNotApricot(cfg: Config)
    requires cfg.caseSensitive
    ensures !HasExact(cfg, ["apple"], "apricot")
  {
    assert "apple"[2] != "apricot"[2];
    assert ["apple"][0] == "apple";
  }

  /** Once "apple" is a tag it is no longer suggested, though it matches. */
  lemma HeldTagNotSuggested(cfg: Config)
    requires cfg == Defaults().(suggestions := ["apple", "banana", "apricot"])
    ensures Matches(cfg, ["apple"], "ap") == ["apricot"]
  {
    ApMatches();
    var q := Text.Lower("ap");
    assert ["apple"][0] == "apple";
    assert HasExact(cfg, ["apple"], "apple");
    AppleNotApricot(cfg);
    FilterThree(cfg, ["apple"], q, "apple", "banana", "apricot");
  }

  /** The filter over three candidates, one step at a time. */
  lemma FilterThree(cfg: Config, tags: seq<string>, q: string, x: string, y: string, z: string)
    ensures Filter(cfg, tags, q, [x, y, z]) ==
      (if Eligible(cfg, tags, q, x) then [x] else []) +
      (if Eligible(cfg, tags, q, y) then [y] else []) +
      (if Eligible(cfg, tags, q, z) then [z] else [])
  {
    FilterCons(cfg, tags, q, x, [y, z]);
    FilterCons(cfg, tags, q, y, [z]);
    FilterCons(cfg, tags, q, z, []);
    assert [x] + [y, z] == [x, y, z] && [y] + [z] == [y, z] && [z] + [] == [z];
  }

  /** One step of the filter. */
  lemma FilterCons(cfg: Config, tags: seq<string>, q: string, x: string, rest: seq<string>)
    ensures Filter(cfg, tags, q, [x] + rest) ==
      (if Eligible(cfg, tags, q, x) then [x] else []) + Filter(cfg, tags, q, rest)
  {
    assert ([x] + rest)[0] == x && ([x] + rest)[1..] == rest;
  }

  /** With three suggestions shown, five presses of ArrowDown highlight the
      last one. */
  lemma NavigationSaturates()
    ensures MoveTimes(Shown(["a", "b", "c"], -1), 1, 5).active == 2
  {
    MoveDownSaturates(Shown(["a", "b", "c"], -1), 5);
  }

  /** `remove("b")` on a, b, c leaves a, c; `removeAt(5)` on three tags fails
      and changes nothing. */
  lemma RemoveByValueAndIndex()
    ensures var w := Start().(tags := ["a", "b", "c"]);
      && Remove(w, "b").0.tags == ["a", "c"]
      && RemoveAt(w, 5) == (w, false)
  {
    var w := Start().(tags := ["a", "b", "c"]);
    assert FirstIndex(w.tags, "b") == 1;
    assert Remove(w, "b").0.tags == w.tags[..1] + w.tags[2..];
    assert w.tags[..1] + w.tags[2..] == ["a", "c"];
  }
}

=== FILE: sequences.dfy ===
/** Order on sequences, shared by the listener lists and the suggestion list:
    both are cut down by JavaScript's `filter`, which keeps the order. */
module Sequences {

  /** `a` lists some of the elements of `b`, in the order they have in `b`. */
  predicate Subsequence<T(==)>(a: seq<T>, b: seq<T>)
    decreases |b|
  {
    if a == [] then true
    else if b == [] then false
    else if a[0] == b[0] then Subsequence(a[1..], b[1..])
    else Subsequence(a, b[1..])
  }

  /** A prefix of a subsequence is a subsequence. */
  lemma {:induction false} PrefixSubsequence<T>(a: seq<T>, b: seq<T>, n: nat)
    requires Subsequence(a, b) && n <= |a|
    ensures Subsequence(a[..n], b)
    decreases |b|
  {
    if n > 0 && b != [] {
      if a[0] == b[0] {
        PrefixSubsequence(a[1..], b[1..], n - 1);
        assert a[..n][1..] == a[1..][..n - 1];
      } else {
        PrefixSubsequence(a, b[1..], n);
      }
    }
  }
}

=== FILE: store.dfy ===
/** The tag collection of one widget and the operations of its public API:
    `add`, `remove`, `removeAt`, `clear`, `fill` / `replace` / `reset`, the
    queries, the mirrored hidden value, and the events each one publishes. */
module Store {
  import opened Wrappers
  import Text
  import opened Validation
  import opened Events
  import opened Suggestions

  /** The delimiter `_syncHidden` joins the tags with. */
  const Delimiter: string := ","

  /** The state of one widget. `hidden` is the value of the original input,
      submitted with the form; `log` lists every event published so far;
      `buffer` is the text of the visible input. */
  datatype Widget = Widget(
    tags: seq<string>,
    readonly: bool,
    disabled: bool,
    silent: bool,
    hidden: string,
    log: seq<Event>,
    view: View,
    buffer: string)

  /** Additions and removals are refused in readonly or disabled mode. */
  predicate Locked(w: Widget) {
    w.readonly || w.disabled
  }

  /** What reaches the listeners of `evs`: nothing while silent. */
  function Published(w: Widget, evs: seq<Event>): seq<Event> {
    if w.silent then [] else evs
  }

  /** `_emit`: appends an event carrying the current tags to the log, unless
      the widget is silent. */
  function Emit(w: Widget, k: Kind, value: Option<string>): (r: Widget)
    ensures r == w.(log := r.log)
    ensures |r.log| == |w.log| + (if w.silent then 0 else 1) && r.log[..|w.log|] == w.log
    ensures !w.silent ==> r.log[|w.log|] == Event(k, value, w.tags)
  {
    w.(log := w.log + Published(w, [Event(k, value, w.tags)]))
  }

  /** `_syncHidden`: the hidden value becomes the tags joined by commas. */
  function Sync(w: Widget): (r: Widget)
    ensures r == w.(hidden := r.hidden)
    ensures w.tags == [] ==> r.hidden == ""
    ensures w.tags != [] && (forall t :: t in w.tags ==> !Text.Contains(t, Delimiter)) ==>
      Text.SplitOn(r.hidden, Delimiter) == w.tags
  {
    var r := w.(hidden := Text.Join(w.tags, Delimiter));
    assert w.tags != [] && (forall t :: t in w.tags ==> !Text.Contains(t, Delimiter)) ==>
      Text.SplitOn(r.hidden, Delimiter) == w.tags
    by {
      if w.tags != [] && (forall t :: t in w.tags ==> !Text.Contains(t, Delimiter)) {
        Text.JoinSplitOn(w.tags, ',');
      }
    }
    r
  }

  /** The collection holds `maxTags` tags already. */
  predicate AtCapacity(cfg: Config, tags: seq<string>) {
    cfg.maxTags.Some? && |tags| >= cfg.maxTags.value
  }

  /* ------------------------------------------------------------------ add */

  /** How `add` decides on a raw value, before any effect. */
  datatype Decision =
    | ModeLocked        // readonly or disabled
    | Empty             // empty after normalisation
    | Full(v: string)   // no room left: `max`
    | Invalid(v: string, why: Reject)  // `_validate` failed: `invalid`
    | Accepted(v: string)

  /** The decision of `add`, taken in the order of the source: mode, emptiness,
      capacity, then `_validate`. A full collection is reported as such whether
      or not the value would have been valid. */
  function Admit(cfg: Config, locked: bool, tags: seq<string>, raw: string): (d: Decision)
    ensures d.ModeLocked? <==> locked
    ensures d.Empty? <==> !locked && Normalize(cfg, raw) == ""
    ensures d.Full? <==> !locked && Normalize(cfg, raw) != "" && AtCapacity(cfg, tags)
    ensures d.Invalid? <==> !locked && Normalize(cfg, raw) != "" && !AtCapacity(cfg, tags)
                            && !Validate(cfg, tags, Normalize(cfg, raw))
    ensures d.Invalid? ==> Check(cfg, tags, d.v) == Some(d.why)
    ensures d.Accepted? <==> !locked && Normalize(cfg, raw) != "" && !AtCapacity(cfg, tags)
                             && Validate(cfg, tags, Normalize(cfg, raw))
    ensures d.Full? || d.Invalid? || d.Accepted? ==> d.v == Normalize(cfg, raw)
  {
    if locked then ModeLocked
    else
      var v := Normalize(cfg, raw);
      if v == "" then Empty
      else if AtCapacity(cfg, tags) then Full(v)
      else match Check(cfg, tags, v)
        case Some(why) => Invalid(v, why)
        case None => Accepted(v)
  }

  /** `add(raw)`. Returns the new state and whether the value was added.
      A rejected value leaves the tags and the hidden value as they were: a
      refused or blank value publishes nothing, a full collection publishes
      `max`, an invalid value `invalid`. An accepted value is appended after
      the existing tags, the hidden value is re-synced, and `add` then
      `change` are published. The collection invariant is kept. */
  function Add(cfg: Config, w: Widget, raw: string): (r: (Widget, bool))
    ensures var d := Admit(cfg, Locked(w), w.tags, raw);
      && (r.1 <==> d.Accepted?)
      && (d.ModeLocked? || d.Empty? ==> r.0 == w)
      && (d.Full? ==> r.0 == w.(log := w.log + Published(w, [Event(MaxEv, Some(d.v), w.tags)])))
      && (d.Invalid? ==> r.0 == w.(log := w.log + Published(w, [Event(InvalidEv, Some(d.v), w.tags)])))
      && (d.Accepted? ==>
            && r.0.tags == w.tags + [d.v]
            && r.0.hidden == Text.Join(r.0.tags, Delimiter)
            && r.0.log == w.log + Published(w, [Event(AddEv, Some(d.v), r.0.tags), Event(ChangeEv, None, r.0.tags)])
            && r.0 == w.(tags := r.0.tags, hidden := r.0.hidden, log := r.0.log))
    ensures TagsOk(cfg, w.tags) ==> TagsOk(cfg, r.0.tags)
  {
    match Admit(cfg, Locked(w), w.tags, raw)
    case ModeLocked => (w, false)
    case Empty => (w, false)
    case Full(v) => (Emit(w, MaxEv, Some(v)), false)
    case Invalid(v, _) => (Emit(w, InvalidEv, Some(v)), false)
    case Accepted(v) =>
      AppendKeepsTagsOk(cfg, w.tags, v);
      var w1 := Sync(w.(tags := w.tags + [v]));
      (Emit(Emit(w1, AddEv, Some(v)), ChangeEv, None), true)
  }

  /* --------------------------------------------------------------- remove */

  /** `removeAt(index)`: refused in readonly or disabled mode and for an index
      outside the tags, leaving the widget as it was; otherwise the tag at
      `index` is cut out, the hidden value re-synced, and `remove` (with the
      removed tag) then `change` are published. */
  function RemoveAt(w: Widget, index: int): (r: (Widget, bool))
    ensures r.1 <==> !Locked(w) && 0 <= index < |w.tags|
    ensures !r.1 ==> r.0 == w
    ensures r.1 ==>
      && r.0.tags == w.tags[..index] + w.tags[index + 1..]
      && r.0.hidden == Text.Join(r.0.tags, Delimiter)
      && r.0.log == w.log + Published(w, [Event(RemoveEv, Some(w.tags[index]), r.0.tags), Event(ChangeEv, None, r.0.tags)])
      && r.0 == w.(tags := r.0.tags, hidden := r.0.hidden, log := r.0.log)
  {
    if Locked(w) || index < 0 || index >= |w.tags| then (w, false)
    else
      var value := w.tags[index];
      var w1 := Sync(w.(tags := w.tags[..index] + w.tags[index + 1..]));
      (Emit(Emit(w1, RemoveEv, Some(value)), ChangeEv, None), true)
  }

  /** `indexOf` on the tags: the first position holding exactly `v`, or -1. */
  function FirstIndex(tags: seq<string>, v: string): (i: int)
    ensures i == -1 <==> v !in tags
    ensures i != -1 ==> 0 <= i < |tags| && tags[i] == v && v !in tags[..i]
    decreases |tags|
  {
    if tags == [] then -1
    else if tags[0] == v then 0
    else
      var k := FirstIndex(tags[1..], v);
      if k == -1 then -1
      else
        assert tags[..k + 1] == [tags[0]] + tags[1..][..k];
        k + 1
  }

  /** `remove(v)`: the first tag exactly equal to `v` (not the duplicate
      comparator) is removed as by `removeAt`; nothing happens when `v` is not
      held. */
  function Remove(w: Widget, v: string): (r: (Widget, bool))
    ensures v !in w.tags ==> r == (w, false)
    ensures v in w.tags ==> r == RemoveAt(w, FirstIndex(w.tags, v))
    ensures r.1 <==> v in w.tags && !Locked(w)
  {
    var i := FirstIndex(w.tags, v);
    if i == -1 then (w, false) else RemoveAt(w, i)
  }

  /** `remove` takes away exactly one copy of `v`: the first, with every other
      tag left in its order. */
  lemma RemoveTakesFirstCopy(w: Widget, v: string)
    requires v in w.tags && !Locked(w)
    ensures var i := FirstIndex(w.tags, v);
      && Remove(w, v).0.tags == w.tags[..i] + w.tags[i + 1..]
      && v !in w.tags[..i]
      && multiset(Remove(w, v).0.tags) == multiset(w.tags) - multiset{v}
  {
    var i := FirstIndex(w.tags, v);
    assert w.tags == w.tags[..i] + [v] + w.tags[i + 1..];
  }

  /** Once duplicates are excluded, a removed tag is no longer held. */
  lemma RemoveThenAbsent(cfg: Config, w: Widget, v: string)
    requires TagsOk(cfg, w.tags) && !cfg.allowDuplicates
    requires v in w.tags && !Locked(w)
    ensures !Has(Remove(w, v).0, v)
  {
  }

  /* -------------------------------------------------------------- queries */

  /** `getTags`: the tags in insertion order. */
  function GetTags(w: Widget): seq<string> {
    w.tags
  }

  /** `has(v)`: exact membership. */
  predicate Has(w: Widget, v: string) {
    v in w.tags
  }

  /** `count()`. */
  function Count(w: Widget): nat {
    |w.tags|
  }

  /** The three queries agree: `count` is the length of `getTags`, and `has`
      holds exactly for the values `getTags` lists, which are those `remove`
      finds. */
  lemma QueriesAgree(w: Widget, v: string)
    ensures Count(w) == |GetTags(w)|
    ensures Has(w, v) <==> exists i :: 0 <= i < Count(w) && GetTags(w)[i] == v
    ensures Has(w, v) <==> FirstIndex(GetTags(w), v) != -1
  {
  }

  /** An accepted `add` makes its normalised value held and counts one more
      tag; removing the last tag again restores the tags and hidden value. */
  lemma AddThenRemoveLast(cfg: Config, w: Widget, raw: string)
    requires Add(cfg, w, raw).1
    requires w.hidden == Text.Join(w.tags, Delimiter)
    ensures var a := Add(cfg, w, raw).0;
      && Has(a, Normalize(cfg, raw))
      && Count(a) == Count(w) + 1
      && GetTags(RemoveAt(a, Count(a) - 1).0) == GetTags(w)
      && RemoveAt(a, Count(a) - 1).0.hidden == w.hidden
  {
    var a := Add(cfg, w, raw).0;
    assert a.tags[..|w.tags|] == w.tags;
  }

  /** The hidden value determines the tags whenever there is at least one tag
      and no tag contains a comma: splitting it on commas gives the tags back.
      (No tags and the single tag "" would both give the empty value, but the
      empty tag is never held.) */
  lemma HiddenEncodesTags(w: Widget)
    requires w.hidden == Text.Join(w.tags, Delimiter)
    requires w.tags != [] && forall t :: t in w.tags ==> !Text.Contains(t, Delimiter)
    ensures Text.SplitOn(w.hidden, Delimiter) == w.tags
  {
    Text.JoinSplitOn(w.tags, ',');
  }

  /* ---------------------------------------------------------------- clear */

  /** `clear()`: the tags are emptied, the hidden value becomes empty, and
      `clear` then `change` are published, even when there was nothing to
      clear. Neither readonly nor disabled mode stops it. */
  function Clear(w: Widget): (r: Widget)
    ensures r.tags == [] && r.hidden == ""
    ensures r.log == w.log + Published(w, [Event(ClearEv, None, []), Event(ChangeEv, None, [])])
    ensures r == w.(tags := [], hidden := "", log := r.log)
  {
    Emit(Emit(Sync(w.(tags := [])), ClearEv, None), ChangeEv, None)
  }

  /** Clearing twice publishes the pair of events twice: the second call is not
      skipped because the collection is already empty. */
  lemma ClearTwice(w: Widget)
    requires !w.silent
    ensures Clear(Clear(w)).tags == []
    ensures Clear(Clear(w)).log == w.log + [Event(ClearEv, None, []), Event(ChangeEv, None, []),
                                            Event(ClearEv, None, []), Event(ChangeEv, None, [])]
  {
  }

  /* ------------------------------------------------------------ fill/reset */

  /** The tags produced by admitting each value of `vals` in turn, starting
      from `tags`: the reference for a sequence of `add` calls. */
  function AdmitAll(cfg: Config, locked: bool, tags: seq<string>, vals: seq<string>): seq<string>
    decreases |vals|
  {
    if vals == [] then tags
    else match Admit(cfg, locked, tags, vals[0])
      case Accepted(v) => AdmitAll(cfg, locked, tags + [v], vals[1..])
      case _ => AdmitAll(cfg, locked, tags, vals[1..])
  }

  /** The events published by admitting each value of `vals` in turn, starting
      from `tags`: `max` for a value refused for lack of room, `invalid` for a
      value that fails validation, `add` then `change` for an accepted one, and
      nothing for a refused or blank value. Each event carries the tags as they
      are when it is published. */
  function AdmitEvents(cfg: Config, locked: bool, tags: seq<string>, vals: seq<string>): seq<Event>
    decreases |vals|
  {
    if vals == [] then []
    else match Admit(cfg, locked, tags, vals[0])
      case Full(v) => [Event(MaxEv, Some(v), tags)] + AdmitEvents(cfg, locked, tags, vals[1..])
      case Invalid(v, _) => [Event(InvalidEv, Some(v), tags)] + AdmitEvents(cfg, locked, tags, vals[1..])
      case Accepted(v) =>
        [Event(AddEv, Some(v), tags + [v]), Event(ChangeEv, None, tags + [v])]
        + AdmitEvents(cfg, locked, tags + [v], vals[1..])
      case _ => AdmitEvents(cfg, locked, tags, vals[1..])
  }

  /** `vals.forEach(v => this.add(v))`: the tags become those the reference
      admits, the earlier ones kept in front; nothing but the tags, the hidden
      value and the log changes; the log grows by the events the reference
      publishes, and by nothing while silent; the invariant is kept; and the
      hidden value is in sync whenever some value was accepted. */
  function AddAll(cfg: Config, w: Widget, vals: seq<string>): (r: Widget)
    ensures r.tags == AdmitAll(cfg, Locked(w), w.tags, vals)
    ensures |w.tags| <= |r.tags| && r.tags[..|w.tags|] == w.tags
    ensures r == w.(tags := r.tags, hidden := r.hidden, log := r.log)
    ensures r.log == w.log + Published(w, AdmitEvents(cfg, Locked(w), w.tags, vals))
    ensures w.silent ==> r.log == w.log
    ensures TagsOk(cfg, w.tags) ==> TagsOk(cfg, r.tags)
    ensures |r.tags| == |w.tags| ==> r.hidden == w.hidden
    ensures |r.tags| > |w.tags| || w.hidden == Text.Join(w.tags, Delimiter) ==>
      r.hidden == Text.Join(r.tags, Delimiter)
    decreases |vals|
  {
    if vals == [] then w
    else
      var a := Add(cfg, w, vals[0]).0;
      var r := AddAll(cfg, a, vals[1..]);
      assert r.tags[..|a.tags|] == a.tags;
      assert a.tags[..|w.tags|] == w.tags;
      assert r.tags[..|w.tags|] == r.tags[..|a.tags|][..|w.tags|];
      LogSteps(cfg, w, vals);
      r
  }

  /** One step of `AddAll`'s log: the first value's events, then the rest's
      from the widget the first `add` leaves. */
  lemma LogSteps(cfg: Config, w: Widget, vals: seq<string>)
    requires vals != []
    ensures var a := Add(cfg, w, vals[0]).0;
      a.log + Published(a, AdmitEvents(cfg, Locked(a), a.tags, vals[1..]))
      == w.log + Published(w, AdmitEvents(cfg, Locked(w), w.tags, vals))
  {
    var a := Add(cfg, w, vals[0]).0;
    var rest := AdmitEvents(cfg, Locked(a), a.tags, vals[1..]);
    match Admit(cfg, Locked(w), w.tags, vals[0])
    case Full(v) => PublishedAppend(w, [Event(MaxEv, Some(v), w.tags)], rest);
    case Invalid(v, _) => PublishedAppend(w, [Event(InvalidEv, Some(v), w.tags)], rest);
    case Accepted(v) =>
      PublishedAppend(w, [Event(AddEv, Some(v), w.tags + [v]), Event(ChangeEv, None, w.tags + [v])], rest);
    case _ =>
  }

  /** Publishing two runs of events is publishing the first, then the second. */
  lemma PublishedAppend(w: Widget, evs: seq<Event>, rest: seq<Event>)
    ensures w.log + Published(w, evs + rest) == (w.log + Published(w, evs)) + Published(w, rest)
  {
  }

  /** When the first value is accepted, the fold continues from the tags with
      it appended. */
  lemma AdmitAllAccepted(cfg: Config, locked: bool, tags: seq<string>, vals: seq<string>, v: string)
    requires vals != [] && Admit(cfg, locked, tags, vals[0]) == Accepted(v)
    ensures AdmitAll(cfg, locked, tags, vals) == AdmitAll(cfg, locked, tags + [v], vals[1..])
  {
  }

  /** A locked widget admits nothing. */
  lemma {:induction false} AdmitAllLocked(cfg: Config, tags: seq<string>, vals: seq<string>)
    ensures AdmitAll(cfg, true, tags, vals) == tags
    decreases |vals|
  {
    if vals != [] {
      AdmitAllLocked(cfg, tags, vals[1..]);
    }
  }

  /** `fill(vals)` (also `replace`): silently clears and adds each value in
      turn, then leaves silent mode and publishes a single `change`. The tags
      become those the reference admits from an empty collection, the hidden
      value is in sync, and the invariant holds of the result. */
  function Fill(cfg: Config, w: Widget, vals: seq<string>): (r: Widget)
    ensures r.tags == AdmitAll(cfg, Locked(w), [], vals)
    ensures !r.silent
    ensures r.log == w.log + [Event(ChangeEv, None, r.tags)]
    ensures r.hidden == Text.Join(r.tags, Delimiter)
    ensures TagsOk(cfg, r.tags)
    ensures r == w.(tags := r.tags, hidden := r.hidden, log := r.log, silent := false)
  {
    var quiet := Clear(w.(silent := true));
    EmptyTagsOk(cfg);
    var filled := AddAll(cfg, quiet, vals);
    Emit(filled.(silent := false), ChangeEv, None)
  }

  /** `reset()`: `fill` with the initial tags of the options. */
  function Reset(cfg: Config, w: Widget): (r: Widget)
    ensures r.tags == AdmitAll(cfg, Locked(w), [], cfg.initialTags)
    ensures r.log == w.log + [Event(ChangeEv, None, r.tags)]
  {
    Fill(cfg, w, cfg.initialTags)
  }

  /** Because `clear` ignores the modes, `fill` and `reset` on a readonly or
      disabled widget remove every tag and add none back. */
  lemma FillWhileLockedEmpties(cfg: Config, w: Widget, vals: seq<string>)
    requires Locked(w)
    ensures Fill(cfg, w, vals).tags == []
    ensures Reset(cfg, w).tags == []
  {
    AdmitAllLocked(cfg, [], vals);
    AdmitAllLocked(cfg, [], cfg.initialTags);
  }

  /* ----------------------------------------------------------- construction */

  /** The state right after the constructor's field initialisation: no tags,
      the host input keeping its own value, nothing shown or typed. */
  function Fresh(host: string, readonly: bool, disabled: bool): Widget {
    Widget([], readonly, disabled, false, host, [], Hidden, "")
  }

  /** The constructor as written: the merged options already carry `readonly`
      and `disabled` when the initial tags are added, so in either mode every
      initial tag is refused. */
  function InitAsWritten(cfg: Config, host: string): (r: Widget)
    ensures r.tags == AdmitAll(cfg, cfg.readonly || cfg.disabled, [], cfg.initialTags)
  {
    AddAll(cfg, Fresh(host, cfg.readonly, cfg.disabled), cfg.initialTags)
  }

  /** The constructor as evidently intended: the initial tags go through `add`
      first and the modes are applied afterwards, so they are shown whatever
      the modes. The hidden value is synced if some initial tag was accepted,
      and otherwise keeps the host input's own value. */
  function Init(cfg: Config, host: string): (r: Widget)
    ensures r.tags == AdmitAll(cfg, false, [], cfg.initialTags)
    ensures r.readonly == cfg.readonly && r.disabled == cfg.disabled
    ensures r.hidden == if r.tags == [] then host else Text.Join(r.tags, Delimiter)
    ensures TagsOk(cfg, r.tags) && ViewOk(r.view) && !r.silent && r.buffer == ""
  {
    EmptyTagsOk(cfg);
    var w := AddAll(cfg, Fresh(host, false, false), cfg.initialTags);
    w.(readonly := cfg.readonly, disabled := cfg.disabled)
  }

  /** With readonly set in the options, the constructor as written drops the
      initial tags the intended one keeps: `{readonly: true, initialTags: ["a"]}`
      yields no tag instead of `["a"]`. */
  lemma ReadonlyDropsInitialTags(host: string)
    ensures var cfg := Defaults().(initialTags := ["a"], readonly := true);
      InitAsWritten(cfg, host).tags == [] && Init(cfg, host).tags == ["a"]
  {
    var cfg := Defaults().(initialTags := ["a"], readonly := true);
    AdmitAllLocked(cfg, [], cfg.initialTags);
    assert Text.Trim("a") == "a" by { Text.TrimOfTrimmed("a"); }
    assert Admit(cfg, false, [], "a") == Accepted("a");
  }

  /** `reset` on an unlocked widget restores exactly the tags the intended
      constructor kept, whatever happened in between. */
  lemma ResetRestoresInitialTags(cfg: Config, host: string, w: Widget)
    requires !Locked(w)
    ensures Reset(cfg, w).tags == Init(cfg, host).tags
  {
  }

  /* --------------------------------------------------------------- invariant */

  /** What holds of every widget between two calls: the collection invariant,
      a well-formed dropdown, and silent mode off. */
  predicate Inv(cfg: Config, w: Widget) {
    TagsOk(cfg, w.tags) && ViewOk(w.view) && !w.silent
  }

  /** Every operation of the store keeps the invariant. */
  lemma {:induction false} OperationsKeepInv(cfg: Config, w: Widget, raw: string, i: int, vals: seq<string>)
    requires Inv(cfg, w)
    ensures Inv(cfg, Add(cfg, w, raw).0)
    ensures Inv(cfg, RemoveAt(w, i).0)
    ensures Inv(cfg, Remove(w, raw).0)
    ensures Inv(cfg, Clear(w))
    ensures Inv(cfg, Fill(cfg, w, vals))
    ensures Inv(cfg, Reset(cfg, w))
  {
    RemoveAtKeepsInv(cfg, w, i);
    RemoveAtKeepsInv(cfg, w, FirstIndex(w.tags, raw));
    EmptyTagsOk(cfg);
  }

  /** `removeAt` keeps the invariant, whether or not it removes anything. */
  lemma RemoveAtKeepsInv(cfg: Config, w: Widget, i: int)
    requires Inv(cfg, w)
    ensures Inv(cfg, RemoveAt(w, i).0)
  {
    if RemoveAt(w, i).1 { DeleteKeepsTagsOk(cfg, w.tags, i); }
  }
}

=== FILE: suggestions.dfy ===
/** The autocomplete dropdown: which configured suggestions `_showSuggestions`
    lists for a query, and how `_moveSuggestion` moves the highlight. */
module Suggestions {
  import Text
  import opened Sequences
  import opened Validation

  /** The dropdown: hidden (no visible suggestions, highlight -1), or shown with
      the visible suggestions and the highlighted index (-1 for none). */
  datatype View = Hidden | Shown(items: seq<string>, active: int)

  /** What every reachable view satisfies: a shown dropdown lists at least one
      suggestion and its highlight is -1 or the index of one of them. */
  predicate ViewOk(v: View) {
    v.Shown? ==> |v.items| > 0 && -1 <= v.active < |v.items|
  }

  /** The filter of `_showSuggestions`: `s` contains the lowercased query `q`
      once lowercased itself, and no tag has the same comparison key as `s`. */
  predicate Eligible(cfg: Config, tags: seq<string>, q: string, s: string) {
    Text.Contains(Text.Lower(s), q) && !HasExact(cfg, tags, s)
  }

  /** The eligible elements of `xs`, in order. */
  function Filter(cfg: Config, tags: seq<string>, q: string, xs: seq<string>): (r: seq<string>)
    ensures Subsequence(r, xs)
    ensures forall s :: s in r <==> s in xs && Eligible(cfg, tags, q, s)
    decreases |xs|
  {
    if xs == [] then []
    else if Eligible(cfg, tags, q, xs[0]) then [xs[0]] + Filter(cfg, tags, q, xs[1..])
    else Filter(cfg, tags, q, xs[1..])
  }

  /** The filter keeps every copy of an eligible suggestion and drops every
      copy of another one, so with `Subsequence` it determines the result. */
  lemma {:induction false} FilterCounts(cfg: Config, tags: seq<string>, q: string, xs: seq<string>, s: string)
    ensures multiset(Filter(cfg, tags, q, xs))[s] == if Eligible(cfg, tags, q, s) then multiset(xs)[s] else 0
    decreases |xs|
  {
    if xs != [] {
      assert xs == [xs[0]] + xs[1..];
      FilterCounts(cfg, tags, q, xs[1..], s);
    }
  }

  /** The suggestions `_showSuggestions` lists for `query`: the eligible
      configured suggestions, in configuration order, cut to `suggestionsLimit`.
      Nothing eligible is left out unless the limit was reached, and when it
      was, the first `suggestionsLimit` eligible ones are kept. */
  function Matches(cfg: Config, tags: seq<string>, query: string): (r: seq<string>)
    ensures var all := Filter(cfg, tags, Text.Lower(query), cfg.suggestions);
      && |r| == (if |all| < cfg.suggestionsLimit then |all| else cfg.suggestionsLimit)
      && r == all[..|r|]
    ensures |r| <= cfg.suggestionsLimit
    ensures Subsequence(r, cfg.suggestions)
    ensures forall s :: s in r ==> Eligible(cfg, tags, Text.Lower(query), s)
    ensures |r| < cfg.suggestionsLimit ==>
      forall s :: s in cfg.suggestions && Eligible(cfg, tags, Text.Lower(query), s) ==> s in r
  {
    var all := Filter(cfg, tags, Text.Lower(query), cfg.suggestions);
    var n := if |all| < cfg.suggestionsLimit then |all| else cfg.suggestionsLimit;
    PrefixSubsequence(all, cfg.suggestions, n);
    assert forall s :: s in all[..n] ==> s in all;
    assert n == |all| ==> all[..n] == all;
    all[..n]
  }

  /** `_showSuggestions`: hidden for an empty query, when no suggestions are
      configured (there is then no dropdown), or when nothing matches;
      otherwise the matches are shown with nothing highlighted. */
  function Show(cfg: Config, tags: seq<string>, query: string): (r: View)
    ensures ViewOk(r)
    ensures query == "" || cfg.suggestions == [] ==> r == Hidden
    ensures r.Shown? ==> r.active == -1 && r.items == Matches(cfg, tags, query)
    ensures r.Hidden? && query != "" && cfg.suggestions != [] ==> Matches(cfg, tags, query) == []
  {
    if cfg.suggestions == [] || query == "" then Hidden
    else
      var m := Matches(cfg, tags, query);
      if m == [] then Hidden else Shown(m, -1)
  }

  /** `_moveSuggestion(dir)`: nothing while hidden; otherwise the highlight
      moves by `dir` and stops at -1 and at the last index instead of wrapping. */
  function Move(v: View, dir: int): (r: View)
    requires ViewOk(v)
    ensures ViewOk(r)
    ensures v.Hidden? ==> r == v
    ensures v.Shown? ==> r.Shown? && r.items == v.items
    ensures v.Shown? && -1 <= v.active + dir < |v.items| ==> r.active == v.active + dir
    ensures v.Shown? && v.active + dir < -1 ==> r.active == -1
    ensures v.Shown? && v.active + dir >= |v.items| ==> r.active == |v.items| - 1
  {
    match v
    case Hidden => v
    case Shown(items, active) =>
      var lowered := if |items| - 1 < active + dir then |items| - 1 else active + dir;
      Shown(items, if lowered < -1 then -1 else lowered)
  }

  /** `k` successive moves by `dir`. */
  function MoveTimes(v: View, dir: int, k: nat): (r: View)
    requires ViewOk(v)
    ensures ViewOk(r)
    decreases k
  {
    if k == 0 then v else MoveTimes(Move(v, dir), dir, k - 1)
  }

  /** From no highlight, `k` presses of ArrowDown highlight entry k-1, and stay
      on the last entry once it is reached. */
  lemma {:induction false} MoveDownSaturates(v: View, k: nat)
    requires v.Shown? && ViewOk(v) && v.active == -1
    ensures MoveTimes(v, 1, k).Shown?
    ensures MoveTimes(v, 1, k).active == (if k - 1 < |v.items| - 1 then k - 1 else |v.items| - 1)
  {
    MoveDownFrom(v, k);
  }

  /** From any highlight, `k` presses of ArrowDown add `k`, up to the last entry. */
  lemma {:induction false} MoveDownFrom(v: View, k: nat)
    requires v.Shown? && ViewOk(v)
    ensures MoveTimes(v, 1, k).Shown? && MoveTimes(v, 1, k).items == v.items
    ensures MoveTimes(v, 1, k).active ==
      (if v.active + k < |v.items| - 1 then v.active + k else |v.items| - 1)
    decreases k
  {
    if k > 0 {
      MoveDownFrom(Move(v, 1), k - 1);
    }
  }

  /** ArrowUp with nothing highlighted leaves nothing highlighted, however often
      it is pressed. */
  lemma {:induction false} MoveUpFromNoneStays(v: View, k: nat)
    requires v.Shown? && ViewOk(v) && v.active == -1
    ensures MoveTimes(v, -1, k) == v
    decreases k
  {
    if k > 0 {
      MoveUpFromNoneStays(Move(v, -1), k - 1);
    }
  }
}

=== FILE: text.dfy ===
/** The string primitives the widget relies on, written out with the JavaScript
    semantics it uses: `String.prototype.trim`, an ASCII `toLowerCase`,
    `includes`, `split` and `Array.prototype.join`. */
module Text {

  /* ---------------------------------------------------------------- trim */

  /** The code points `String.prototype.trim` strips: ECMAScript WhiteSpace
      (TAB, VT, FF, SP, NBSP, ZWNBSP and the Zs category) and LineTerminator. */
  predicate IsSpace(c: char) {
    || c == '\t' || c == '\U{B}' || c == '\U{C}' || c == ' '
    || c == '\U{A0}' || c == '\U{FEFF}' || c == '\U{1680}'
    || ('\U{2000}' <= c <= '\U{200A}')
    || c == '\U{202F}' || c == '\U{205F}' || c == '\U{3000}'
    || c == '\n' || c == '\r' || c == '\U{2028}' || c == '\U{2029}'
  }

  /** All characters of `s` are white space. */
  predicate AllSpace(s: string) {
    forall i :: 0 <= i < |s| ==> IsSpace(s[i])
  }

  /** `s` neither starts nor ends with white space. */
  predicate Trimmed(s: string) {
    s == [] || (!IsSpace(s[0]) && !IsSpace(s[|s| - 1]))
  }

  /** `String.prototype.trim`: white space is dropped from both ends until
      neither end is white space. */
  function Trim(s: string): (r: string)
    ensures Trimmed(r) && |r| <= |s|
    decreases |s|
  {
    if s != [] && IsSpace(s[0]) then Trim(s[1..])
    else if s != [] && IsSpace(s[|s| - 1]) then Trim(s[..|s| - 1])
    else s
  }

  /** The trim of `s` is the slice of `s` between its leading and its trailing
      white space: only white space is cut, and only at the ends. */
  lemma {:induction false} TrimSlice(s: string)
    ensures exists a, b :: 0 <= a <= b <= |s| && Trim(s) == s[a..b] && AllSpace(s[..a]) && AllSpace(s[b..])
    decreases |s|
  {
    if s != [] && IsSpace(s[0]) {
      TrimSlice(s[1..]);
      var a, b :| 0 <= a <= b <= |s[1..]| && Trim(s[1..]) == s[1..][a..b]
                  && AllSpace(s[1..][..a]) && AllSpace(s[1..][b..]);
      WidenLeft(s, a, b);
    } else if s != [] && IsSpace(s[|s| - 1]) {
      TrimSlice(s[..|s| - 1]);
      var a, b :| 0 <= a <= b <= |s[..|s| - 1]| && Trim(s[..|s| - 1]) == s[..|s| - 1][a..b]
                  && AllSpace(s[..|s| - 1][..a]) && AllSpace(s[..|s| - 1][b..]);
      WidenRight(s, a, b);
    } else {
      assert Trim(s) == s[0..|s|];
      assert AllSpace(s[..0]) && AllSpace(s[|s|..]);
    }
  }

  /** A slice of `s[1..]` framed by white space, seen in `s` whose first
      character is white space. */
  lemma WidenLeft(s: string, a: int, b: int)
    requires s != [] && IsSpace(s[0])
    requires 0 <= a <= b <= |s| - 1 && AllSpace(s[1..][..a]) && AllSpace(s[1..][b..])
    ensures s[1..][a..b] == s[a + 1..b + 1]
    ensures AllSpace(s[..a + 1]) && AllSpace(s[b + 1..])
  {
    var head := s[..a + 1];
    forall i | 0 <= i < |head| ensures IsSpace(head[i]) {
      if i > 0 { assert head[i] == s[1..][..a][i - 1]; }
    }
    assert s[b + 1..] == s[1..][b..];
  }

  /** A slice of `s[..|s| - 1]` framed by white space, seen in `s` whose last
      character is white space. */
  lemma WidenRight(s: string, a: int, b: int)
    requires s != [] && IsSpace(s[|s| - 1])
    requires 0 <= a <= b <= |s| - 1 && AllSpace(s[..|s| - 1][..a]) && AllSpace(s[..|s| - 1][b..])
    ensures s[..|s| - 1][a..b] == s[a..b]
    ensures AllSpace(s[..a]) && AllSpace(s[b..])
  {
    assert s[..a] == s[..|s| - 1][..a];
    var tail := s[b..];
    forall i | 0 <= i < |tail| ensures IsSpace(tail[i]) {
      if i < |s| - 1 - b { assert tail[i] == s[..|s| - 1][b..][i]; }
    }
  }

  /** A string with no white space at either end is its own trim. */
  lemma {:induction false} TrimOfTrimmed(s: string)
    requires Trimmed(s)
    ensures Trim(s) == s
  {
  }

  /** Trimming twice is trimming once. */
  lemma TrimIdempotent(s: string)
    ensures Trim(Trim(s)) == Trim(s)
  {
    TrimOfTrimmed(Trim(s));
  }

  /** A string of white space only trims to the empty string, and nothing else does. */
  lemma {:induction false} TrimEmptyIffAllSpace(s: string)
    ensures Trim(s) == [] <==> AllSpace(s)
    decreases |s|
  {
    if AllSpace(s) && s != [] {
      assert AllSpace(s[1..]) by {
        forall i | 0 <= i < |s[1..]| ensures IsSpace(s[1..][i]) {
          assert s[1..][i] == s[i + 1];
        }
      }
      TrimEmptyIffAllSpace(s[1..]);
    }
    if Trim(s) == [] {
      TrimSlice(s);
      var a, b :| 0 <= a <= b <= |s| && Trim(s) == s[a..b] && AllSpace(s[..a]) && AllSpace(s[b..]);
      assert s == s[..a] + s[b..];
      forall i | 0 <= i < |s| ensures IsSpace(s[i]) {
        if i < a { assert s[i] == s[..a][i]; } else { assert s[i] == s[b..][i - a]; }
      }
    }
  }

  /* ----------------------------------------------------------- lowercase */

  /** ASCII lowercase of one character. */
  function LowerChar(c: char): (r: char)
    ensures ('A' <= c <= 'Z') ==> 'a' <= r <= 'z'
    ensures !('A' <= c <= 'Z') ==> r == c
    ensures ('A' <= c <= 'Z') ==> r as int - 'a' as int == c as int - 'A' as int
  {
    if 'A' <= c <= 'Z' then (c as int + 32) as char else c
  }

  /** `String.prototype.toLowerCase`, restricted to the ASCII letters. */
  function Lower(s: string): (r: string)
    ensures |r| == |s|
    ensures forall i :: 0 <= i < |s| ==> r[i] == LowerChar(s[i])
    ensures forall i :: 0 <= i < |r| ==> !('A' <= r[i] <= 'Z')
    ensures forall i :: 0 <= i < |s| && !('A' <= s[i] <= 'Z') ==> r[i] == s[i]
  {
    seq(|s|, i requires 0 <= i < |s| => LowerChar(s[i]))
  }

  /* ------------------------------------------------------ substring search */

  /** `q` occurs in `s` at offset `k`. */
  predicate OccursAt(s: string, q: string, k: int) {
    0 <= k && k + |q| <= |s| && s[k..k + |q|] == q
  }

  /** `String.prototype.indexOf`: the first offset at which `q` occurs in `s`,
      or -1 when it occurs nowhere. */
  function IndexOf(s: string, q: string): (r: int)
    ensures r == -1 || OccursAt(s, q, r)
    ensures r == -1 ==> forall k :: !OccursAt(s, q, k)
    ensures forall k :: 0 <= k < r ==> !OccursAt(s, q, k)
  {
    IndexFrom(s, q, 0)
  }

  /** The scan behind `IndexOf`: the first offset from `from` on at which `q`
      occurs in `s`, or -1. */
  function IndexFrom(s: string, q: string, from: nat): (r: int)
    ensures r == -1 || (from <= r && OccursAt(s, q, r))
    ensures forall k :: from <= k && (r == -1 || k < r) ==> !OccursAt(s, q, k)
    decreases |s| - from
  {
    if from + |q| > |s| then -1
    else if OccursAt(s, q, from) then from
    else IndexFrom(s, q, from + 1)
  }

  /** `String.prototype.includes`. */
  predicate Contains(s: string, q: string) {
    IndexOf(s, q) >= 0
  }

  /** `includes` holds exactly when `q` occurs somewhere in `s`. */
  lemma ContainsIffOccurs(s: string, q: string)
    ensures Contains(s, q) <==> exists k :: OccursAt(s, q, k)
  {
  }

  /* ------------------------------------------------------------ split/join */

  /** `Array.prototype.join`: the parts with `sep` between consecutive ones. */
  function Join(parts: seq<string>, sep: string): (r: string)
    ensures parts == [] ==> r == ""
    ensures parts != [] ==> |parts[0]| <= |r| && r[..|parts[0]|] == parts[0]
    ensures |parts| > 1 ==> |parts[0]| + |sep| <= |r| && r[|parts[0]|..|parts[0]| + |sep|] == sep
    decreases |parts|
  {
    if |parts| == 0 then ""
    else if |parts| == 1 then parts[0]
    else parts[0] + sep + Join(parts[1..], sep)
  }

  /** `String.prototype.split` by a non-empty separator: the maximal pieces
      between successive leftmost occurrences of `sep`. */
  function SplitOn(s: string, sep: string): (r: seq<string>)
    requires sep != ""
    ensures |r| >= 1
    decreases |s|
  {
    var i := IndexOf(s, sep);
    if i < 0 then [s] else [s[..i]] + SplitOn(s[i + |sep|..], sep)
  }

  /** One single-character string per character of `s`. */
  function Chars(s: string): (r: seq<string>)
    ensures |r| == |s|
    ensures forall i :: 0 <= i < |s| ==> r[i] == [s[i]]
  {
    seq(|s|, i requires 0 <= i < |s| => [s[i]])
  }

  /** `String.prototype.split` as JavaScript defines it for any string
      separator: the empty separator cuts `s` into its characters (and the empty
      string into no pieces at all). */
  function Split(s: string, sep: string): (r: seq<string>)
    ensures r == [] <==> sep == "" && s == ""
    ensures sep == "" ==> forall p :: p in r ==> |p| == 1
    ensures sep != "" ==> forall p :: p in r ==> !Contains(p, sep)
    ensures sep != "" ==> (|r| > 1 <==> Contains(s, sep))
  {
    if sep == "" then Chars(s)
    else
      SplitOnPieces(s, sep);
      SplitOn(s, sep)
  }

  /** Joining a head in front of a non-empty list puts one separator between. */
  lemma JoinCons(h: string, tail: seq<string>, sep: string)
    requires |tail| >= 1
    ensures Join([h] + tail, sep) == h + sep + Join(tail, sep)
  {
    assert ([h] + tail)[1..] == tail;
  }

  /** A join of several parts is the join of all but the last, the separator,
      and the last part. */
  lemma {:induction false} JoinSnoc(parts: seq<string>, sep: string)
    requires |parts| > 1
    ensures Join(parts, sep) == Join(parts[..|parts| - 1], sep) + sep + parts[|parts| - 1]
    decreases |parts|
  {
    var init, last := parts[..|parts| - 1], parts[|parts| - 1];
    if |parts| == 2 {
      assert init == [parts[0]];
    } else {
      var tail, mid := parts[1..], Join(init[1..], sep);
      JoinSnoc(tail, sep);
      assert tail[..|tail| - 1] == init[1..];
      assert Join(init, sep) == parts[0] + sep + mid;
      Regroup(parts[0], sep, mid, last);
    }
  }

  /** Regrouping of a join with two separators. */
  lemma Regroup(a: string, sep: string, m: string, z: string)
    ensures a + sep + (m + sep + z) == (a + sep + m) + sep + z
  {
  }

  /** A text cut around an occurrence of `sep` is the piece before, `sep`, and
      the rest. */
  lemma CutAround(s: string, sep: string, i: int)
    requires OccursAt(s, sep, i)
    ensures s == s[..i] + sep + s[i + |sep|..]
  {
    assert s[i..i + |sep|] == sep;
    assert s == s[..i] + s[i..i + |sep|] + s[i + |sep|..];
  }

  /** Splitting on a non-empty separator and joining back gives the original. */
  lemma {:induction false} SplitOnJoin(s: string, sep: string)
    requires sep != ""
    ensures Join(SplitOn(s, sep), sep) == s
    decreases |s|
  {
    var i := IndexOf(s, sep);
    if i >= 0 {
      var rest := s[i + |sep|..];
      SplitOnJoin(rest, sep);
      JoinCons(s[..i], SplitOn(rest, sep), sep);
      CutAround(s, sep, i);
    }
  }

  /** Joining the characters of `s` with nothing between them gives `s`. */
  lemma {:induction false} CharsJoin(s: string)
    ensures Join(Chars(s), "") == s
    decreases |s|
  {
    if |s| > 1 {
      CharsJoin(s[1..]);
      assert Chars(s)[1..] == Chars(s[1..]);
    }
  }

  /** Whatever the separator, joining the pieces of a split gives back the text:
      no character is lost or invented by the split. */
  lemma SplitJoin(s: string, sep: string)
    ensures Join(Split(s, sep), sep) == s
  {
    if sep == "" { CharsJoin(s); } else { SplitOnJoin(s, sep); }
  }

  /** No piece of a split on a non-empty separator contains the separator, and
      there is more than one piece exactly when the separator occurs. */
  lemma {:induction false} SplitOnPieces(s: string, sep: string)
    requires sep != ""
    ensures forall p :: p in SplitOn(s, sep) ==> !Contains(p, sep)
    ensures |SplitOn(s, sep)| > 1 <==> Contains(s, sep)
    decreases |s|
  {
    var i := IndexOf(s, sep);
    if i >= 0 {
      SplitOnPieces(s[i + |sep|..], sep);
      var head := s[..i];
      forall k | OccursAt(head, sep, k)
        ensures false
      {
        OccursInPrefix(s, sep, i, k);
      }
    }
  }

  /** An occurrence in a prefix is an occurrence in the whole text. */
  lemma OccursInPrefix(s: string, q: string, i: nat, k: int)
    requires i <= |s| && OccursAt(s[..i], q, k)
    ensures OccursAt(s, q, k)
  {
    forall j | 0 <= j < |q|
      ensures s[k..k + |q|][j] == q[j]
    {
      assert s[..i][k..k + |q|][j] == s[..i][k + j] == s[k + j];
    }
  }

  /** In `a + [c] + b`, the first occurrence of the one-character separator
      `[c]` is right after `a` when `a` does not contain it. */
  lemma FirstOccurrenceAfter(a: string, c: char, b: string)
    requires !Contains(a, [c])
    ensures IndexOf(a + [c] + b, [c]) == |a|
  {
    var s := a + [c] + b;
    assert s[|a|..|a| + 1] == [c];
    assert OccursAt(s, [c], |a|);
    var r := IndexOf(s, [c]);
    if r < |a| {
      assert a[r..r + 1] == s[r..r + 1];
      ContainsIffOccurs(a, [c]);
      assert OccursAt(a, [c], r);
    }
  }

  /** Joining non-empty-listed pieces with a one-character separator none of
      them contains, then splitting on it, gives the pieces back. */
  lemma {:induction false} JoinSplitOn(parts: seq<string>, c: char)
    requires |parts| >= 1
    requires forall i :: 0 <= i < |parts| ==> !Contains(parts[i], [c])
    ensures SplitOn(Join(parts, [c]), [c]) == parts
    decreases |parts|
  {
    if |parts| == 1 {
      assert IndexOf(parts[0], [c]) == -1;
    } else {
      var head, tail := parts[0], parts[1..];
      assert parts == [head] + tail;
      JoinCons(head, tail, [c]);
      var rest := Join(tail, [c]);
      FirstOccurrenceAfter(head, c, rest);
      SplitOnAt(head + [c] + rest, [c], |head|);
      assert (head + [c] + rest)[..|head|] == head;
      assert (head + [c] + rest)[|head| + 1..] == rest;
      JoinSplitOn(tail, c);
    }
  }

  /** One step of `SplitOn` at the first occurrence `i` of the separator. */
  lemma SplitOnAt(s: string, sep: string, i: int)
    requires sep != "" && IndexOf(s, sep) == i && i >= 0
    ensures SplitOn(s, sep) == [s[..i]] + SplitOn(s[i + |sep|..], sep)
  {
    var rest := s[i + |sep|..];
    assert SplitOn(s, sep) == [s[..i]] + SplitOn(rest, sep);
  }
}

=== FILE: validation.dfy ===
/** The widget's options and the pure half of `add`: normalising a raw value,
    comparing it with the tags already held, and the ordered checks of
    `_validate`. */
module Validation {
  import opened Wrappers
  import Text

  /** What a user-supplied `validate` function may return, as far as the widget
      looks at it: the boolean `false` and any string reject the value; every
      other result (`true`, `undefined`, a number, an object) accepts it. */
  datatype Verdict = Bool(b: bool) | Message(text: string) | NoVerdict

  /** The `transform` option: unset (`null` or any other falsy value), the
      default `v => v.trim()`, or a function of the caller's. */
  datatype Transform = Unset | TrimDefault | Custom(f: string -> string)

  /** The widget's options after merging with the defaults. An unbounded
      `maxTags` or `maxLength` (JavaScript's `Infinity`) is `None`; a missing or
      non-function `validate` is `None`. */
  datatype Config = Config(
    initialTags: seq<string>,
    separators: seq<string>,
    maxTags: Option<nat>,
    minLength: nat,
    maxLength: Option<nat>,
    allowDuplicates: bool,
    caseSensitive: bool,
    validate: Option<string -> Verdict>,
    transform: Transform,
    suggestions: seq<string>,
    suggestionsLimit: nat,
    readonly: bool,
    disabled: bool)

  /** The defaults the constructor merges the caller's options into. */
  function Defaults(): Config {
    Config([], [","], None, 1, None, false, true, None, TrimDefault, [], 6, false, false)
  }

  /** `_normalize`: the configured transform, or `trim` when none is set. */
  function Normalize(cfg: Config, raw: string): (r: string)
    ensures !cfg.transform.Custom? ==> Text.Trimmed(r) && |r| <= |raw|
  {
    match cfg.transform
    case Custom(f) => f(raw)
    case TrimDefault => Text.Trim(raw)
    case Unset => Text.Trim(raw)
  }

  /** Without a transform, and with the default one, a normalised value is the
      trim of the raw value: the raw value with its leading and trailing white
      space cut, and nothing else. */
  lemma NormalizeDefaultTrims(cfg: Config, raw: string)
    requires !cfg.transform.Custom?
    ensures Normalize(cfg, raw) == Text.Trim(raw)
    ensures exists a, b :: 0 <= a <= b <= |raw| && Normalize(cfg, raw) == raw[a..b]
                           && Text.AllSpace(raw[..a]) && Text.AllSpace(raw[b..])
  {
    Text.TrimSlice(raw);
  }

  /** The comparison key of the duplicate check: the value itself when
      `caseSensitive`, its lowercase form otherwise. */
  function Key(cfg: Config, s: string): string {
    if cfg.caseSensitive then s else Text.Lower(s)
  }

  /** `_hasExact`: some tag has the same comparison key as `v`. */
  predicate HasExact(cfg: Config, tags: seq<string>, v: string): (r: bool)
    ensures v in tags ==> r
    ensures cfg.caseSensitive ==> (r <==> v in tags)
  {
    exists i :: 0 <= i < |tags| && Key(cfg, tags[i]) == Key(cfg, v)
  }

  /** `_isDuplicate`: never with `allowDuplicates`, otherwise `_hasExact`. */
  predicate IsDuplicate(cfg: Config, tags: seq<string>, v: string): (r: bool)
    ensures cfg.allowDuplicates ==> !r
    ensures !cfg.allowDuplicates && v in tags ==> r
    ensures !cfg.allowDuplicates && cfg.caseSensitive ==> (r <==> v in tags)
  {
    !cfg.allowDuplicates && HasExact(cfg, tags, v)
  }

  /** Whether the custom validator, if any, lets `v` through. */
  predicate CustomAccepts(cfg: Config, v: string) {
    match cfg.validate
    case None => true
    case Some(f) => !(f(v) == Bool(false) || f(v).Message?)
  }

  /** The length bounds of `_validate`. */
  predicate LengthOk(cfg: Config, v: string) {
    cfg.minLength <= |v| && (cfg.maxLength.Some? ==> |v| <= cfg.maxLength.value)
  }

  /** Why `_validate` turned a value down. */
  datatype Reject = TooShort | TooLong | Duplicate | Refused

  /** `_validate` with its reason: the first check that fails, or `None`. */
  function Check(cfg: Config, tags: seq<string>, v: string): (r: Option<Reject>)
    ensures r == Some(TooShort) <==> |v| < cfg.minLength
    ensures r == Some(TooLong) <==> cfg.minLength <= |v| && cfg.maxLength.Some? && |v| > cfg.maxLength.value
    ensures r == Some(Duplicate) <==> LengthOk(cfg, v) && IsDuplicate(cfg, tags, v)
    ensures r == Some(Refused) <==> LengthOk(cfg, v) && !IsDuplicate(cfg, tags, v) && !CustomAccepts(cfg, v)
    ensures r == None <==> LengthOk(cfg, v) && !IsDuplicate(cfg, tags, v) && CustomAccepts(cfg, v)
  {
    if |v| < cfg.minLength then Some(TooShort)
    else if cfg.maxLength.Some? && |v| > cfg.maxLength.value then Some(TooLong)
    else if IsDuplicate(cfg, tags, v) then Some(Duplicate)
    else if !CustomAccepts(cfg, v) then Some(Refused)
    else None
  }

  /** `_validate`: true when every check passes. */
  predicate Validate(cfg: Config, tags: seq<string>, v: string): (r: bool)
    ensures r <==> LengthOk(cfg, v) && !IsDuplicate(cfg, tags, v) && CustomAccepts(cfg, v)
  {
    Check(cfg, tags, v).None?
  }

  /* ------------------------------------------------------ the invariant */

  /** What every held tag satisfies: non-empty (the `!v` test of `add`), within
      the length bounds, and accepted by the custom validator. */
  predicate TagOk(cfg: Config, t: string) {
    t != "" && LengthOk(cfg, t) && CustomAccepts(cfg, t)
  }

  /** Pairwise distinct comparison keys. */
  predicate DistinctKeys(cfg: Config, tags: seq<string>) {
    forall i, j :: 0 <= i < j < |tags| ==> Key(cfg, tags[i]) != Key(cfg, tags[j])
  }

  /** The tag collection's invariant: at most `maxTags` tags, each one a valid
      tag, and no two of them duplicates unless `allowDuplicates`. */
  predicate TagsOk(cfg: Config, tags: seq<string>) {
    && (cfg.maxTags.Some? ==> |tags| <= cfg.maxTags.value)
    && (forall i :: 0 <= i < |tags| ==> TagOk(cfg, tags[i]))
    && (!cfg.allowDuplicates ==> DistinctKeys(cfg, tags))
  }

  /** Appending a non-empty value that passes `_validate` to a collection with
      room left keeps the invariant. */
  lemma {:induction false} AppendKeepsTagsOk(cfg: Config, tags: seq<string>, v: string)
    requires v != "" && Validate(cfg, tags, v)
    requires cfg.maxTags.Some? ==> |tags| < cfg.maxTags.value
    ensures TagsOk(cfg, tags) ==> TagsOk(cfg, tags + [v])
  {
    if !TagsOk(cfg, tags) { return; }
    var t := tags + [v];
    assert forall i :: 0 <= i < |tags| ==> t[i] == tags[i];
    if !cfg.allowDuplicates {
      forall i, j | 0 <= i < j < |t|
        ensures Key(cfg, t[i]) != Key(cfg, t[j])
      {
        if j == |tags| {
          assert !HasExact(cfg, tags, v);
          assert Key(cfg, tags[i]) != Key(cfg, v);
        }
      }
    }
  }

  /** Deleting the tag at `i` keeps the invariant. */
  lemma {:induction false} DeleteKeepsTagsOk(cfg: Config, tags: seq<string>, i: nat)
    requires TagsOk(cfg, tags)
    requires i < |tags|
    ensures TagsOk(cfg, tags[..i] + tags[i + 1..])
  {
    var t := tags[..i] + tags[i + 1..];
    assert forall k :: 0 <= k < |t| ==> t[k] == tags[if k < i then k else k + 1];
  }

  /** The empty collection satisfies the invariant. */
  lemma EmptyTagsOk(cfg: Config)
    ensures TagsOk(cfg, [])
  {
  }
}

=== FILE: wrappers.dfy ===
/** The optional value used wherever the widget's options default to "no limit" or
    "no function configured", and for a call that throws. */
module Wrappers {
  datatype Option<+T> = None | Some(value: T)
}
